=== FILE: README.md ===
# SmartCareer core, modelled in Dafny

SmartCareer is a Flask career-guidance site with a small browser script. This project
models its decision logic as pure Dafny functions over an explicit store, and proves
properties of that logic:

- **Quiz scoring** (`QuizScoring`). Four rubric questions q1–q4 and a bonus for every
  extra `q…` answer of "yes", "very" or "high". The rubric is written once as a data
  table, `Rubric`. The handler's if/elif code is modelled separately as the methods
  `ApplyQ1`–`ApplyQ4` and `ScoreAnswers`, and those are proved to compute the table.
- **Match percentages and top three** (`Ranking`).
  - Each percentage is `score*100 / (max+20)`, floored and capped at 100.
  - When every score is 0, every career gets 50.
  - The ranking is a stable descending sort (Python's `sorted(..., reverse=True)`) and
    keeps the first three.
- **Quiz submission** (`QuizSubmission`). Authentication, the enriched response, the
  stored quiz record and the per-user progress counters.
- **Accounts** (`Accounts`). Registration with its four checks in the handler's order,
  and login. Emails are normalised with `strip().lower()`.
- **Feedback** (`Feedback`).
  - Checks for required fields, the email pattern and the message length.
  - Each stored entry gets the next sequential id.
  - The `web3_status` reported to the client comes from the optional relay.
- **Routes** (`Routes`). The `/api/colleges` type dispatch, and the mapping from a
  `/roadmap/<career>` URL segment back to a career name.
- **Browser helpers** (`Client`). `isValidEmail`, the verdict of `validateForm`,
  `getInitials`, and the `isMobile`/`isTablet`/`isDesktop` width classes.

Shared pieces:

- `Text` holds whitespace stripping, ASCII case mapping, split/join and replace.
- `EmailPattern` holds the three email regular expressions. All three have the form
  `^X+@X+\.X+$` and differ only in the class X. They are checked by one decision
  procedure, `Check`, which is proved equal to the pattern read literally (`FullMatch`).
- `Careers` holds the ten careers, their display names and the catalog lookup.
- `AppStore` holds the in-memory stores as one immutable record.

The model follows app.py. Three of its consequences are easy to miss:

- With all scores 0 (an empty answer set, for instance), every career gets 50%, not 0%.
- The college table has six lists (IITs, NITs, IIITs, AIIMS, private universities, IIMs).
- The IIIT list cannot be selected on its own (see Findings).

Inputs that replace I/O:

- The password digest and the digest check are parameters.
- The presence of the relay access key and the relay's outcome (HTTP status or exception)
  are parameters.
- The session's user is an `Option`.
- The browser window width is an integer parameter.

## Model

| member | source | states |
|---|---|---|
| `QuizScoring.ScoreAnswers` | app.py:466-538 | Running the handler's scoring steps gives, for every career, the rubric table's points for q1–q4 plus 2 for each extra affirmative `q…` answer. |
| `QuizScoring.RubricScores` | app.py:467-530 | Starting from ten zeros, the four question blocks give every career exactly its rubric points for the q1–q4 answers. |
| `QuizScoring.AddBonuses` | app.py:533-538 | One pass over the answers, in any order, adds 2 to every career for each extra `q…` key answered yes/very/high. |
| `QuizScoring.AddToAll` | app.py:514-516 | Adds the same amount to every career. |
| `QuizScoring.ApplyQ1` | app.py:481-497 | The q1 branches add exactly the rubric's q1 points for the answer to each career; any other answer adds nothing. |
| `QuizScoring.ApplyQ2` | app.py:499-510 | The same for q2. |
| `QuizScoring.ApplyQ3` | app.py:512-516 | The same for q3: "remote" adds 5 to every career. |
| `QuizScoring.ApplyQ4` | app.py:518-530 | The same for q4. |
| `QuizScoring.Bump` | app.py:484-486 | Adding points to one career leaves all the others unchanged. |
| `QuizScoringFacts.SameScores` | app.py:482-538 | The score table depends only on the q1–q4 answers and on which extra keys are affirmative. |
| `QuizScoringFacts.NonQuestionKeyAddsNothing` | app.py:533-534 | An answer under a key that does not start with "q" changes no score. |
| `QuizScoringFacts.RemoteAddsFive` | app.py:513-516 | Answering q3 "remote" raises every score by exactly 5 and keeps their order. |
| `QuizScoringFacts.ExtraAffirmativeAddsTwo` | app.py:533-538 | A new extra `q…` answer of yes/very/high raises every score by exactly 2 and keeps their order. |
| `QuizScoringFacts.ExtraOtherAddsNothing` | app.py:533-538 | A new extra answer of any other value changes nothing. |
| `QuizScoringFacts.UnlistedAnswerAddsNothing` | app.py:483-530 | An answer no branch lists earns no points. |
| `QuizScoringFacts.EmptyAnswersScoreZero` | app.py:467-478 | No answers leave every career at 0. |
| `QuizScoringFacts.RemoteOnlyScores` | app.py:513-516 | Answering only q3 "remote" gives every career 5. |
| `QuizScoringFacts.BuildingTechScores` | app.py:482-486 | Answering only q1 "building_tech" gives 20, 15 and 15 to Software Developer, AI/ML Engineer and Cloud Architect, and 0 to the rest. |
| `Ranking.Max` | app.py:541 | The maximum bounds every score and is attained by some career. |
| `Ranking.PercentRule` | app.py:541-548 | With a positive maximum, each percentage is `score*100/(max+20)` and stays below 100; with maximum 0, it is 50. |
| `Ranking.PercentBelowHundred` | app.py:545 | For a score at most the maximum, the uncapped ratio is below 100, so the cap at 100 never applies. |
| `Ranking.DivMonotone` | app.py:545 | Flooring the quotient keeps the order of the numerators. |
| `Ranking.PercentMonotone` | app.py:541-548 | A higher raw score never gets a lower percentage. |
| `Ranking.Insert` | app.py:551 | Insertion into the ranking adds exactly one entry and loses none (multiset). |
| `Ranking.SortDescending` | app.py:551 | The sort is a permutation of its input. |
| `Ranking.InsertRanked` | app.py:551 | Inserting an entry that comes earlier in declaration order keeps the list ranked: higher percentage first, ties in declaration order. |
| `Ranking.SortRanked` | app.py:551 | Sorting the careers in declaration order yields a ranked list; this is Python's stable descending sort. |
| `Ranking.SortAllEqual` | app.py:551 | When all percentages are equal, the sort leaves the list as it is. |
| `Ranking.PairedInDeclarationOrder` | app.py:543-548 | The percentages are paired with the careers in the order the score dictionary declares them. |
| `Ranking.RankingIsPermutation` | app.py:551 | The full ranking lists every career once, each with its own percentage. |
| `Ranking.TopThree` | app.py:551 | The result always has exactly three entries. |
| `Ranking.TopThreeSpec` | app.py:551 | The top three are ranked, carry their careers' own percentages, and precede every omitted career (strictly higher, or equal and earlier in declaration order). |
| `Ranking.AllZeroPercentages` | app.py:544-547 | All-zero scores give every career 50. |
| `Ranking.UniformPercentages` | app.py:544-545 | Equal positive scores n give every career `n*100/(n+20)`. |
| `Ranking.TieKeepsDeclarationOrder` | app.py:551 | When all percentages tie, the top three are Software Developer, Data Scientist and AI/ML Engineer. |
| `Ranking.StrictLeaderFirst` | app.py:551 | A career with a strictly highest percentage comes first. |
| `Careers.Ordinal` | app.py:467-478 | Each career has one position in the declaration order. |
| `Careers.OrdinalOfIndex` | app.py:467-478 | The position of the i-th career is i. |
| `Careers.NameInCatalog` | app.py:178-259 | A catalog keyed by the ten display names, as `CAREER_PATHS` is, has an entry for every career, and each of its keys names a career. |
| `Careers.EnrichUsesCatalog` | app.py:553-564 | For a catalog that covers the careers, a recommendation carries the catalog's description, salary range and skills. |
| `QuizSubmission.EnrichAll` | app.py:553-564 | The response lists the top careers in rank order, each enriched from the catalog. |
| `QuizSubmission.SubmitQuiz` | app.py:460-461 | Without a logged-in user the answer is "not authenticated" and nothing is stored. |
| `QuizSubmission.ScoreMapLookup` | app.py:570 | The stored `scores` map sends each top career's name to its percentage. |
| `QuizSubmission.ScoreMapKeys` | app.py:570 | The stored `scores` map has exactly the top careers' names as keys, no others. |
| `QuizSubmission.LoggedRecord` | app.py:567-571 | The logged record carries the user, the response's names in rank order, and a score map over exactly those names with each one's percentage. |
| `QuizSubmission.NamesDistinct` | app.py:467-478 | Different careers have different display names. |
| `QuizSubmission.ResponseIsTopThree` | app.py:541-564 | The response lists the first three careers of the percentage ranking in rank order, each with its own percentage and its catalog description, salary range and skills; no omitted career has a higher percentage. |
| `QuizSubmission.CommitEffects` | app.py:553-578 | Committing three distinct careers appends one quiz record whose names are the response's, in rank order, and whose score map has exactly those names as keys, each with its response score, adds 1 to the user's quiz count, sets the user's match count to 3, and changes nothing else. |
| `QuizSubmission.SubmitQuizEffects` | app.py:456-583 | For a logged-in user and the shipped catalog, the response is the top three of the percentage ranking of the submitted answers, each with its own percentage and its catalog description, salary range and skills, and the store changes exactly as described for `CommitEffects`. |
| `QuizSubmission.QuizzesTakenCounts` | app.py:575-577 | After n submissions the user's quiz count has grown by n, the earlier records are kept and n records were appended after them, and the accounts are unchanged. |
| `QuizSubmission.FreshUserCount` | app.py:575-577 | In any store, a user with no progress record (as after registering) who submits n quizzes has a count of n. |
| `QuizSubmission.EmptyAnswersExample` | app.py:541-551 | Empty answers recommend Software Developer, Data Scientist and AI/ML Engineer, all at 50. |
| `QuizSubmission.RemoteOnlyExample` | app.py:513-551 | Answering only "remote" recommends the first three careers at 20 each (5*100/25). |
| `QuizSubmission.BuildingTechExample` | app.py:482-551 | Answering only "building_tech" puts Software Developer first at 50, with Content Writer at 0. |
| `QuizSubmission.BuildingTechPercentages` | app.py:541-548 | Scores 20/15/15/0 give 50 to the leader and less than 50 to everyone else. |
| `Accounts.Register` | app.py:322-353 | Registration succeeds exactly when the stripped name, the normalised email and the password are non-empty, the password has at least 6 characters, the email matches `^[^@]+@[^@]+\.[^@]+$`, and the email is not yet registered. On success it adds one account; otherwise the store is unchanged. The error reported is the first failing check. |
| `Accounts.StrippedEmailMatch` | app.py:326-337 | For a normalised email, Python's `re.match` with `$` agrees with a whole-string match. |
| `Accounts.Login` | app.py:355-374 | Login succeeds exactly for a registered normalised email whose stored digest accepts the password; the session gets that email and the account's name. |
| `Accounts.NormalizeIdempotent` | app.py:326 | Normalising an email twice is the same as once. |
| `Accounts.RegisterEffect` | app.py:331-349 | Registration either leaves the store as it was or adds one account under a previously unused normalised email. |
| `Accounts.RegisterKeepsDirectory` | app.py:340-349 | Registration never removes or alters an existing account. |
| `Accounts.RegisterKeepsKeysNormalized` | app.py:326-344 | The directory's keys stay in normalised form. |
| `Accounts.RegisterThenLogin` | app.py:344-372 | After a successful registration, logging in with any spelling that normalises to the same email, and the same password, succeeds. |
| `Accounts.NoDuplicateRegistration` | app.py:340-341 | Registering the same normalised email a second time fails with "already registered". |
| `Feedback.FirstMissing` | app.py:835-838 | Reports the first required field that is missing or empty, or none when all are present. |
| `Feedback.SubmitFeedback` | app.py:828-903 | Rejected exactly when a required field is empty, the email fails `^[^\s@]+@[^\s@]+\.[^\s@]+$` under Python's `re.match`, or the message is shorter than 10. A rejection stores nothing. A rejection reports the first failing check, in the handler's order. Otherwise the entry is appended with id `len+1` before forwarding, so it stays stored even when forwarding raises; the reply is a 500 exactly when forwarding raised, and otherwise carries the forwarding status. |
| `Feedback.AcceptedReply` | app.py:866-903 | For an acceptable submission the reply is "skipped" without an access key, "submitted" on HTTP 200, "failed" on any other status, and a 500 when the relay call raised; the id is always `len+1`. |
| `Feedback.EmailCheckedBeforeLength` | app.py:840-847 | With every field present, a malformed email is reported even when the message is also too short, and nothing is stored. |
| `Feedback.ForwardStatusSpec` | app.py:866-892 | `web3_status` is "skipped" exactly when no key is configured. With a key it is "submitted" exactly on HTTP 200 and "failed" on any other status; an exception becomes a server error. |
| `Feedback.SubmitKeepsIdsSequential` | app.py:851-863 | Stored feedback ids stay 1, 2, 3, … in storage order. |
| `Feedback.MissingFieldOrder` | app.py:835-838 | The error names the first empty field in the order name, email, feedback_type, subject, message. |
| `Routes.CollegesAsWrittenSpec` | app.py:665-684 | As written: "iits", "nits", "aiims", "private" and "iims" (any case) select their lists; any other type selects all lists concatenated. |
| `Routes.IiitListOnlyInFallback` | app.py:671-672 | As written, every type whose lower case is "iiits" (the table's own key "iIits" among them) returns every college, never the IIIT list alone. |
| `Routes.IiitKeyFallsBack` | app.py:667-684 | As written, asking for the IIIT list by its own table key, "iIits", returns every college. |
| `Routes.CollegesSpec` | app.py:665-684 | Corrected: each of the six lists is selected by its own type name, and any other type selects all of them. |
| `Routes.CollegesAgreeElsewhere` | app.py:667-684 | The corrected dispatch differs from the as-written dispatch only for "iiits". |
| `Routes.RoadmapAsWritten` | app.py:410-420 | As written, the page shows the roadmap of the normalised name (underscores to spaces, then the AI/ML case) exactly when that name is a catalog key, and the general roadmap otherwise. |
| `Routes.Roadmap` | app.py:410-420 | Corrected: it shows the named career's roadmap when the normalised name is in the catalog, and the general roadmap otherwise. |
| `Routes.RoadmapRoundTrip` | app.py:410-420 | With the correction and a catalog that covers the careers, the URL segment of every career's name leads back to that career's roadmap. |
| `Routes.UxUiSlugFallsBack` | app.py:413-419 | As written and with the shipped catalog, the segment "UX_UI_Designer" redirects to the general roadmap. |
| `Routes.UxUiRoadmapUnreachable` | app.py:410-420 | As written, no URL segment (which cannot contain '/') reaches the UX/UI Designer roadmap. |
| `Routes.SlashFollowsI` | app.py:416 | After the AI/ML replacement, every '/' comes right after an 'I'. |
| `Client.IsValidEmailSpec` | static/js/main.js:84-87 | `isValidEmail` is true exactly when the whole string matches `^[^\s@]+@[^\s@]+\.[^\s@]+$`. |
| `Client.IsValidEmailRejects` | static/js/main.js:84-87 | No '@', two '@', or any whitespace means invalid. |
| `Client.TrailingNewlineOnlyServerSide` | static/js/main.js:84-87 | An address that fully matches the server's pattern still passes the server's `re.match` with one trailing newline added, but the browser rejects that form. |
| `Client.FieldCheckSpec` | static/js/main.js:72-78 | A field that is blank after trimming is "required", whatever its type; otherwise an email field must match the pattern untrimmed. |
| `Client.CheckAll` | static/js/main.js:71-79 | Every item is checked, not only up to the first failure; each gets its own verdict, and the result is true exactly when no verdict is an error. |
| `Client.ValidateForm` | static/js/main.js:67-82 | Each required field gets the verdict `FieldCheckSpec` describes, and the form passes exactly when no field has an error. |
| `Client.FormVerdict` | static/js/main.js:67-82 | Passing means no field reported an error, and one blank field blocks the form. |
| `Client.GetInitialsSpec` | static/js/main.js:235-241 | The initials are the upper-cased first letters of the words between single spaces, with empty words skipped, matching an independent left-to-right scan; a name of only spaces has none. |
| `Client.DeviceClass` | static/js/main.js:337-347 | A width is classed mobile, tablet or desktop exactly as `isMobile`, `isTablet` and `isDesktop` say. |
| `Client.ExactlyOneDevice` | static/js/main.js:337-347 | Every width satisfies exactly one of the three predicates. |
| `Client.DeviceMonotone` | static/js/main.js:337-347 | A wider window is never in a smaller class. |
| `Text.StripIsStripped` | app.py:326 | Stripping leaves no whitespace at either end, and it gives the empty string exactly for an all-whitespace input. |
| `Text.JoinSplit` | static/js/main.js:237 | The split on one character loses nothing: joining its pieces with that character again gives back the input, which fixes what `Split` computes. |
| `Text.ReplaceAllAbsent` | app.py:416 | Where the pattern cannot start, replacement changes nothing. |
| `EmailPattern.CheckIsFullMatch` | app.py:337 | The decision procedure accepts exactly the strings that `^X+@X+\.X+$` matches as a whole. |
| `EmailPattern.CheckSound` | app.py:337 | Every string the decision procedure accepts matches the pattern. |
| `EmailPattern.CheckComplete` | app.py:337 | Every way the pattern can match a string makes the decision procedure accept it. |
| `EmailPattern.CheckShape` | static/js/main.js:84-87 | A string is accepted exactly when it is a non-empty local part, an '@', and a domain, where both parts are free of the excluded characters and the domain has a '.' that is neither its first nor its last character. |
| `EmailPattern.CheckRejects` | app.py:841-843 | Strings with no '@', with two '@', or (for the whitespace-excluding class) with whitespace are rejected. |

## Left out

- Flask plumbing (routing, sessions, JSON parsing, HTTP status codes, templates, redirects),
  and all other routes: resume builder, skills, careers, scholarships, user stats and chat.
  They lie outside the modelled core.
- Password hashing is a library call. The digest and the digest check are parameters.
- The external form relay (`requests.post`) is a parameter, not modelled; the chat relay is left out entirely.
- Timestamps (`datetime.now()`), `created_at`, `profile_data` and feedback's constant
  `status: 'new'` field. They are not observable in any modelled property.
- The static tables (college records, catalog contents beyond the fields a recommendation
  reads, scholarships). The college records are a type parameter. The catalog is one map parameter,
  used both for enrichment and for the roadmap lookup; the properties that need its contents
  require its keys to be exactly the ten display names (`KeyedByCareer`) or to cover them.
- The user-facing error message strings. Errors are datatype constructors instead.
- Ranking.PercentRule: the source computes the percentage in floating point,
  `int((score / (max + 20)) * 100)`. The model uses the exact floor `score*100/(max+20)`.
  The two can differ by one where the float product falls just below an integer.
- Text.IsSpace: whitespace, and also `\s` in the patterns, is ASCII only (plus Python's
  U+001C..U+001F). Unicode spaces such as U+00A0 are not treated as whitespace.
- Text.Lower: case mapping is ASCII only, for `lower()` and `toUpperCase()`. Non-ASCII
  letters are left unchanged.
- Client.GetInitials: characters are Dafny `char`s, not UTF-16 code units, so a word
  starting with a surrogate pair is not split the way JavaScript splits it.
- Feedback.Field: non-string JSON values (numbers, lists, `null`) in feedback, register
  and quiz payloads are not modelled; every field is a string or absent. The same applies
  to the rating, which is an integer or absent.
- Client.ValidateForm: the DOM side (`showError`, CSS classes, error elements) is
  reduced to one verdict per field. The rest of main.js (toasts, animations, fetch
  helpers, date formatting, debounce) and animations.js are presentation only.
- Concurrency: the handlers share module-level stores. Each request is modelled as one
  atomic step.
- Routes.UrlSlug: the front-end code that builds roadmap links is not part of this model.
  The segment format (spaces and '/' become '_') is inferred from the handler's reverse
  mapping.

## Findings

| source | as written | input that shows it | evidently intended | confidence | as-written member | corrected member |
|---|---|---|---|---|---|---|
| app.py:671-672 | The third branch tests `college_type == 'iits'` again, so it is unreachable, and `COLLEGES_DATABASE['iIits']` is only ever returned inside the full list. | `GET /api/colleges?type=iiits` returns every college. | `'iiits'` (the lower-cased key) selects the IIIT list. | not executed; high | `Routes.IiitListOnlyInFallback` | `Routes.CollegesSpec` |
| app.py:413-419 | Only "AI ML Engineer" gets its slash back, so "UX UI Designer" is not a catalog key. | `/roadmap/UX_UI_Designer` redirects to the general roadmap. | Every career's URL segment reaches its own roadmap. | not executed; medium (the link format is inferred) | `Routes.UxUiRoadmapUnreachable` | `Routes.RoadmapRoundTrip` |

=== FILE: accounts.dfy ===
/**
 * The account directory: registration and login over a map from normalised email to
 * account. Password hashing belongs to a library outside this model: registration is
 * handed the digest, and login is handed the library's digest check.
 */
module Accounts {
  import opened Wrappers
  import opened Text
  import opened EmailPattern
  import opened AppStore

  /** `.strip().lower()`: the form in which emails are stored and looked up. */
  function NormalizeEmail(raw: string): string {
    Lower(Strip(Python, raw))
  }

  const MinPasswordLength: nat := 6

  datatype RegisterError = MissingField | PasswordTooShort | InvalidEmail | EmailTaken

  datatype RegisterOutcome = Registered | RegisterFailed(error: RegisterError)

  /** The registration checks, in the handler's order; `None` when all pass. */
  function RegisterCheck(users: map<string, Account>, email: string, password: string, name: string): Option<RegisterError> {
    if email == [] || password == [] || name == [] then Some(MissingField)
    else if |password| < MinPasswordLength then Some(PasswordTooShort)
    else if !PyMatch(NotAt, email) then Some(InvalidEmail)
    else if email in users then Some(EmailTaken)
    else None
  }

  /**
   * Registration. `digest` is what the hashing library returns for `password`.
   * A rejected request leaves the store unchanged; an accepted one adds one account.
   */
  function Register(s: Store, rawEmail: string, password: string, rawName: string, digest: string): (r: (Store, RegisterOutcome))
    ensures var email := NormalizeEmail(rawEmail);
      var name := Strip(Python, rawName);
      && (r.1 == Registered <==>
            email != [] && name != [] && |password| >= MinPasswordLength
            && FullMatch(NotAt, email) && email !in s.users)
      && (r.1.Registered? ==> r.0 == s.(users := s.users[email := Account(name, digest)]))
      && (r.1.RegisterFailed? ==> r.0 == s)
      && (r.1 == RegisterFailed(MissingField) <==> email == [] || password == [] || name == [])
      && (r.1 == RegisterFailed(PasswordTooShort) ==> email != [] && name != [] && 0 < |password| < MinPasswordLength)
      && (r.1 == RegisterFailed(InvalidEmail) ==>
            email != [] && name != [] && |password| >= MinPasswordLength && !FullMatch(NotAt, email))
      && (r.1 == RegisterFailed(EmailTaken) ==>
            |password| >= MinPasswordLength && FullMatch(NotAt, email) && email in s.users)
  {
    var email := NormalizeEmail(rawEmail);
    var name := Strip(Python, rawName);
    StrippedEmailMatch(rawEmail);
    match RegisterCheck(s.users, email, password, name)
    case Some(e) => (s, RegisterFailed(e))
    case None => (s.(users := s.users[email := Account(name, digest)]), Registered)
  }

  /** A normalised email never ends in a newline, so Python's `$` quirk does not arise for it. */
  lemma StrippedEmailMatch(rawEmail: string)
    ensures PyMatch(NotAt, NormalizeEmail(rawEmail)) <==> FullMatch(NotAt, NormalizeEmail(rawEmail))
  {
    var email := NormalizeEmail(rawEmail);
    StripIsStripped(Python, rawEmail);
    LowerKeepsStripped(Python, Strip(Python, rawEmail));
    CheckIsFullMatch(NotAt, email);
  }

  datatype LoginOutcome = LoggedIn(email: string, name: string) | InvalidCredentials

  /**
   * Login: succeeds only for a stored email whose digest accepts the password; the session
   * then holds the normalised email and the account name. `verify` is the library's check.
   */
  function Login(s: Store, rawEmail: string, password: string, verify: (string, string) -> bool): (r: LoginOutcome)
    ensures var email := NormalizeEmail(rawEmail);
      && (r.LoggedIn? <==> email in s.users && verify(s.users[email].passwordHash, password))
      && (r.LoggedIn? ==> r.email == email && r.name == s.users[email].name)
  {
    var email := NormalizeEmail(rawEmail);
    if email !in s.users then InvalidCredentials
    else
      var account := s.users[email];
      if !verify(account.passwordHash, password) then InvalidCredentials
      else LoggedIn(email, account.name)
  }

  /** Normalising twice is normalising once. */
  lemma NormalizeIdempotent(raw: string)
    ensures NormalizeEmail(NormalizeEmail(raw)) == NormalizeEmail(raw)
  {
    var t := Strip(Python, raw);
    StripIsStripped(Python, raw);
    LowerKeepsStripped(Python, t);
    StripOfStripped(Python, Lower(t));
    LowerIdempotent(t);
  }

  /** Every key of the directory is in normalised form. */
  predicate KeysNormalized(users: map<string, Account>) {
    forall k :: k in users ==> NormalizeEmail(k) == k
  }

  /** What registration does to the store: either nothing, or one new account under the normalised email. */
  lemma RegisterEffect(s: Store, rawEmail: string, password: string, rawName: string, digest: string)
    ensures var r := Register(s, rawEmail, password, rawName, digest);
      var email := NormalizeEmail(rawEmail);
      || r.0 == s
      || (email !in s.users && r.0 == s.(users := s.users[email := Account(Strip(Python, rawName), digest)]))
  {
  }

  /**
   * Registration adds at most one key, the normalised email, and never alters an account
   * that was already there, nor any other store.
   */
  lemma RegisterKeepsDirectory(s: Store, rawEmail: string, password: string, rawName: string, digest: string)
    ensures var s' := Register(s, rawEmail, password, rawName, digest).0;
      && (forall k :: k in s.users ==> k in s'.users && s'.users[k] == s.users[k])
      && (s'.users.Keys == s.users.Keys || s'.users.Keys == s.users.Keys + {NormalizeEmail(rawEmail)})
      && s'.quizResults == s.quizResults && s'.progress == s.progress && s'.feedback == s.feedback
  {
    RegisterEffect(s, rawEmail, password, rawName, digest);
    var s' := Register(s, rawEmail, password, rawName, digest).0;
    var email := NormalizeEmail(rawEmail);
    if s' != s {
      var users' := s.users[email := Account(Strip(Python, rawName), digest)];
      assert s'.users == users' && email !in s.users;
      assert users'.Keys == s.users.Keys + {email};
    }
  }

  /** Registration keeps every directory key in normalised form. */
  lemma RegisterKeepsKeysNormalized(s: Store, rawEmail: string, password: string, rawName: string, digest: string)
    requires KeysNormalized(s.users)
    ensures KeysNormalized(Register(s, rawEmail, password, rawName, digest).0.users)
  {
    var users' := Register(s, rawEmail, password, rawName, digest).0.users;
    RegisterKeepsDirectory(s, rawEmail, password, rawName, digest);
    NormalizeIdempotent(rawEmail);
    forall k | k in users'
      ensures NormalizeEmail(k) == k
    {
      if k !in s.users {
        assert k == NormalizeEmail(rawEmail);
      }
    }
  }

  /**
   * A successful registration can be followed by a login with the same password, under any
   * spelling of the email that normalises to the same key.
   */
  lemma RegisterThenLogin(s: Store, rawEmail: string, password: string, rawName: string, digest: string,
                          loginEmail: string, verify: (string, string) -> bool)
    requires Register(s, rawEmail, password, rawName, digest).1 == Registered
    requires NormalizeEmail(loginEmail) == NormalizeEmail(rawEmail)
    requires verify(digest, password)
    ensures Login(Register(s, rawEmail, password, rawName, digest).0, loginEmail, password, verify)
      == LoggedIn(NormalizeEmail(rawEmail), Strip(Python, rawName))
  {
  }

  /** A second registration of the same email, in any spelling, is refused and changes nothing. */
  lemma NoDuplicateRegistration(s: Store, rawEmail: string, password: string, rawName: string, digest: string,
                                again: string, password2: string, rawName2: string, digest2: string)
    requires Register(s, rawEmail, password, rawName, digest).1 == Registered
    requires NormalizeEmail(again) == NormalizeEmail(rawEmail)
    ensures var s1 := Register(s, rawEmail, password, rawName, digest).0;
      Register(s1, again, password2, rawName2, digest2).1 != Registered
      && Register(s1, again, password2, rawName2, digest2).0 == s1
  {
  }
}

=== FILE: app_store.dfy ===
/**
 * The application's in-memory stores, gathered into one value: the account directory,
 * the quiz-result log, per-user progress counters and the feedback list.
 */
module AppStore {

  /** A registered user; the password is kept only as the digest the hashing library produced. */
  datatype Account = Account(name: string, passwordHash: string)

  /** One quiz outcome: the user, the recommended career names in rank order, and their percentages. */
  datatype QuizResult = QuizResult(user: string, careers: seq<string>, scores: map<string, nat>)

  datatype Progress = Progress(quizzesTaken: nat, matchesFound: nat)

  /** A stored feedback submission. */
  datatype FeedbackEntry = FeedbackEntry(
    id: nat, name: string, email: string, feedbackType: string,
    subject: string, message: string, rating: int)

  datatype Store = Store(
    users: map<string, Account>,
    quizResults: seq<QuizResult>,
    progress: map<string, Progress>,
    feedback: seq<FeedbackEntry>)

  /** The stores at process start. */
  const EmptyStore: Store := Store(map[], [], map[], [])
}

=== FILE: careers.dfy ===
/**
 * The ten careers the quiz scores, in declaration order, and the career-path catalog
 * the recommendations are enriched from.
 */
module Careers {

  datatype Career =
    | SoftwareDeveloper
    | DataScientist
    | AiMlEngineer
    | UxUiDesigner
    | DigitalMarketingSpecialist
    | CybersecurityExpert
    | ProductManager
    | CloudArchitect
    | BusinessAnalyst
    | ContentWriter

  const CareerCount: nat := 10

  /** Declaration order of the score table; the ranking breaks ties by it. */
  const AllCareers: seq<Career> := [
    SoftwareDeveloper, DataScientist, AiMlEngineer, UxUiDesigner, DigitalMarketingSpecialist,
    CybersecurityExpert, ProductManager, CloudArchitect, BusinessAnalyst, ContentWriter
  ]

  /** Position of a career in declaration order. */
  function Ordinal(c: Career): (i: nat)
    ensures i < CareerCount && AllCareers[i] == c
  {
    match c
    case SoftwareDeveloper => 0
    case DataScientist => 1
    case AiMlEngineer => 2
    case UxUiDesigner => 3
    case DigitalMarketingSpecialist => 4
    case CybersecurityExpert => 5
    case ProductManager => 6
    case CloudArchitect => 7
    case BusinessAnalyst => 8
    case ContentWriter => 9
  }

  /** The declaration order lists every career exactly once. */
  lemma OrdinalOfIndex(i: int)
    requires 0 <= i < CareerCount
    ensures Ordinal(AllCareers[i]) == i
  {
  }

  /** The display name, which is also the career's key in the career-path catalog. */
  function Name(c: Career): string {
    match c
    case SoftwareDeveloper => "Software Developer"
    case DataScientist => "Data Scientist"
    case AiMlEngineer => "AI/ML Engineer"
    case UxUiDesigner => "UX/UI Designer"
    case DigitalMarketingSpecialist => "Digital Marketing Specialist"
    case CybersecurityExpert => "Cybersecurity Expert"
    case ProductManager => "Product Manager"
    case CloudArchitect => "Cloud Architect"
    case BusinessAnalyst => "Business Analyst"
    case ContentWriter => "Content Writer"
  }

  /** The key set of the career-path catalog: exactly the ten names. */
  function CatalogNames(): set<string> {
    set i | 0 <= i < CareerCount :: Name(AllCareers[i])
  }

  /** Every display name is one of the ten names. */
  lemma NameInNames(c: Career)
    ensures Name(c) in CatalogNames()
  {
    assert Name(c) == Name(AllCareers[Ordinal(c)]);
  }

  /** The catalog fields a recommendation uses; the others (demand, education, companies) are not read. */
  datatype PathInfo = PathInfo(description: string, salaryRange: string, skillsRequired: seq<string>)

  /** The career-path catalog, keyed by career name. Its contents are static data outside this model. */
  type Catalog = map<string, PathInfo>

  /** The shipped catalog has an entry for every one of the ten careers. */
  predicate CoversCareers(catalog: Catalog) {
    forall c: Career :: Name(c) in catalog
  }

  /** The shipped catalog is keyed by exactly the ten display names. */
  predicate KeyedByCareer(catalog: Catalog) {
    catalog.Keys == CatalogNames()
  }

  /** A catalog keyed by career has an entry for every career, and each of its keys names a career. */
  lemma NameInCatalog(catalog: Catalog)
    requires KeyedByCareer(catalog)
    ensures CoversCareers(catalog)
    ensures forall k :: k in catalog ==> exists c: Career :: Name(c) == k
  {
    forall c: Career
      ensures Name(c) in catalog
    {
      NameInNames(c);
    }
  }

  /** One recommended career as returned to the client. */
  datatype TopCareer = TopCareer(name: string, score: nat, description: string, salary: string, skills: seq<string>)

  /** Joins a ranked career with its catalog entry; a missing entry gives '', 'N/A' and no skills. */
  function Enrich(catalog: Catalog, c: Career, score: nat): TopCareer {
    var name := Name(c);
    if name in catalog then
      var info := catalog[name];
      TopCareer(name, score, info.description, info.salaryRange, info.skillsRequired)
    else
      TopCareer(name, score, "", "N/A", [])
  }

  /** With a catalog that covers the ten careers, enrichment copies the entry and never falls back. */
  lemma EnrichUsesCatalog(catalog: Catalog, c: Career, score: nat)
    requires CoversCareers(catalog)
    ensures var e := Enrich(catalog, c, score);
      && e.name == Name(c) && e.score == score
      && e.description == catalog[Name(c)].description
      && e.salary == catalog[Name(c)].salaryRange
      && e.skills == catalog[Name(c)].skillsRequired
  {
  }
}

=== FILE: client.dfy ===
/**
 * The browser helpers of the front end: the email check, required-field validation of a
 * form, a person's initials, and the three viewport-width classes.
 */
module Client {
  import opened Wrappers
  import opened Text
  import opened EmailPattern

  /** The form's email pattern `^[^\s@]+@[^\s@]+\.[^\s@]+$`; in JavaScript `$` is the very end of the string. */
  function IsValidEmail(email: string): bool {
    Check(NotSpaceOrAt(JavaScript), email)
  }

  /** Valid exactly when the whole address matches the pattern. */
  lemma IsValidEmailSpec(email: string)
    ensures IsValidEmail(email) <==> FullMatch(NotSpaceOrAt(JavaScript), email)
  {
    CheckIsFullMatch(NotSpaceOrAt(JavaScript), email);
  }

  /** No '@', a second '@', or any whitespace at all (a trailing newline included) is refused. */
  lemma IsValidEmailRejects(email: string)
    ensures '@' !in email ==> !IsValidEmail(email)
    ensures (exists i, j :: 0 <= i < j < |email| && email[i] == '@' && email[j] == '@') ==> !IsValidEmail(email)
    ensures HasSpace(JavaScript, email) ==> !IsValidEmail(email)
  {
    CheckRejects(NotSpaceOrAt(JavaScript), email);
  }

  /**
   * The browser and the feedback endpoint disagree on one trailing newline: an address
   * the server's pattern accepts is still accepted by Python's `$` with a newline after it,
   * while the browser refuses it.
   */
  lemma TrailingNewlineOnlyServerSide(email: string)
    requires Check(NotSpaceOrAt(Python), email)
    ensures PyMatch(NotSpaceOrAt(Python), email + ['\n'])
    ensures !IsValidEmail(email + ['\n'])
  {
    var s := email + ['\n'];
    assert IsSpace(JavaScript, s[|s| - 1]);
    IsValidEmailRejects(s);
    assert s[..|s| - 1] == email;
  }

  // ---- Form validation ----

  /** A required input of a form: its current value, and whether its type is "email". */
  datatype FormField = FormField(value: string, isEmail: bool)

  datatype FieldError = Required | BadEmail

  /** The verdict `validateForm` gives one required field, if any. */
  function FieldCheck(f: FormField): Option<FieldError> {
    if Strip(JavaScript, f.value) == [] then Some(Required)
    else if f.isEmail && !IsValidEmail(f.value) then Some(BadEmail)
    else None
  }

  /**
   * A field that is blank after trimming is "required", whatever its type; otherwise an
   * email field must match the pattern, untrimmed.
   */
  lemma FieldCheckSpec(f: FormField)
    ensures FieldCheck(f) == Some(Required) <==> AllSpace(JavaScript, f.value)
    ensures FieldCheck(f) == Some(BadEmail) <==>
      !AllSpace(JavaScript, f.value) && f.isEmail && !FullMatch(NotSpaceOrAt(JavaScript), f.value)
    ensures FieldCheck(f) == None <==>
      !AllSpace(JavaScript, f.value) && (f.isEmail ==> FullMatch(NotSpaceOrAt(JavaScript), f.value))
  {
    StripIsStripped(JavaScript, f.value);
    IsValidEmailSpec(f.value);
  }

  /** A field that passes in the browser. */
  predicate FieldOk(f: FormField) {
    !AllSpace(JavaScript, f.value) && (f.isEmail ==> IsValidEmail(f.value))
  }

  /**
   * The `forEach` of `validateForm`: every item is checked (an error is shown on each
   * failing one, not just the first), and the result is true when none failed.
   */
  method CheckAll<T, E>(items: seq<T>, check: T -> Option<E>) returns (allOk: bool, verdicts: seq<Option<E>>)
    ensures |verdicts| == |items|
    ensures forall i :: 0 <= i < |items| ==> verdicts[i] == check(items[i])
    ensures allOk <==> forall i :: 0 <= i < |items| ==> check(items[i]).None?
  {
    allOk := true;
    verdicts := [];
    var i := 0;
    while i < |items|
      invariant 0 <= i <= |items|
      invariant |verdicts| == i
      invariant forall j :: 0 <= j < i ==> verdicts[j] == check(items[j])
      invariant allOk <==> forall j :: 0 <= j < i ==> check(items[j]).None?
    {
      var e := check(items[i]);
      verdicts := verdicts + [e];
      allOk := allOk && e.None?;
      i := i + 1;
    }
  }

  /** `validateForm` over the form's required fields: one verdict per field, and whether the form may be submitted. */
  method ValidateForm(fields: seq<FormField>) returns (isValid: bool, errors: seq<Option<FieldError>>)
    ensures |errors| == |fields|
    ensures forall i :: 0 <= i < |fields| ==> errors[i] == FieldCheck(fields[i])
    ensures isValid <==> forall i :: 0 <= i < |fields| ==> FieldCheck(fields[i]).None?
  {
    isValid, errors := CheckAll(fields, FieldCheck);
  }

  /** No field reporting an error is the same as every field passing, and one blank field blocks the form. */
  lemma FormVerdict(fields: seq<FormField>)
    ensures (forall i :: 0 <= i < |fields| ==> FieldOk(fields[i])) <==>
      (forall i :: 0 <= i < |fields| ==> FieldCheck(fields[i]).None?)
    ensures (exists i :: 0 <= i < |fields| && AllSpace(JavaScript, fields[i].value)) ==>
      !(forall i :: 0 <= i < |fields| ==> FieldOk(fields[i]))
  {
    forall i | 0 <= i < |fields|
      ensures FieldOk(fields[i]) <==> FieldCheck(fields[i]).None?
    {
      FieldCheckSpec(fields[i]);
    }
  }

  // ---- Initials ----

  /** The first character of each word; an empty word (`word[0]` is undefined) contributes nothing. */
  function Firsts(words: seq<string>): (r: string)
    ensures |r| <= |words|
  {
    if |words| == 0 then []
    else (if |words[0]| > 0 then [words[0][0]] else []) + Firsts(words[1..])
  }

  /** `getInitials`: split on single spaces, take each word's first character, join, upper-case. */
  function GetInitials(name: string): string {
    Upper(Firsts(Split(name, ' ')))
  }

  /** An independent reading: scan left to right, keeping every non-space character that follows a space or the start. */
  function WordStarts(s: string, atStart: bool): string
    decreases |s|
  {
    if |s| == 0 then []
    else if s[0] == ' ' then WordStarts(s[1..], true)
    else (if atStart then [s[0]] else []) + WordStarts(s[1..], false)
  }

  lemma {:induction false} SkipWord(u: string, tail: string)
    requires ' ' !in u
    ensures WordStarts(u + tail, false) == WordStarts(tail, false)
    decreases |u|
  {
    if |u| > 0 {
      assert (u + tail)[0] == u[0];
      assert (u + tail)[1..] == u[1..] + tail;
      SkipWord(u[1..], tail);
    } else {
      assert u + tail == tail;
    }
  }

  /** The first character of a word, or nothing for an empty word. */
  function Initial(word: string): string {
    if |word| > 0 then [word[0]] else []
  }

  lemma FirstsCons(word: string, words: seq<string>)
    ensures Firsts([word] + words) == Initial(word) + Firsts(words)
  {
    assert ([word] + words)[1..] == words;
  }

  /** A space-free word followed by a space contributes its first character, then scanning restarts. */
  lemma WordThenSpace(word: string, rest: string)
    requires ' ' !in word
    ensures WordStarts(word + ([' '] + rest), true) == Initial(word) + WordStarts(rest, true)
  {
    var tail := [' '] + rest;
    assert tail[1..] == rest;
    if |word| > 0 {
      assert (word + tail)[1..] == word[1..] + tail;
      SkipWord(word[1..], tail);
    } else {
      assert word + tail == tail;
    }
  }

  /** A space-free word at the end contributes only its first character. */
  lemma LastWord(word: string)
    requires ' ' !in word
    ensures WordStarts(word, true) == Initial(word)
  {
    if |word| > 0 {
      SkipWord(word[1..], []);
      assert word[1..] + [] == word[1..];
    }
  }

  lemma {:induction false} FirstsOfSplit(s: string)
    ensures Firsts(Split(s, ' ')) == WordStarts(s, true)
    decreases |s|
  {
    var k := IndexOf(s, ' ');
    var word := s[..k];
    assert ' ' !in word;
    SplitStep(s, ' ');
    if k == |s| {
      assert word == s;
      FirstsCons(s, []);
      LastWord(s);
    } else {
      var rest := s[k + 1..];
      FirstsCons(word, Split(rest, ' '));
      FirstsOfSplit(rest);
      assert s == word + ([' '] + rest);
      WordThenSpace(word, rest);
    }
  }

  /** The initials are the upper-cased word starts of the name, and a name without any word has none. */
  lemma GetInitialsSpec(name: string)
    ensures GetInitials(name) == Upper(WordStarts(name, true))
    ensures |GetInitials(name)| <= |Split(name, ' ')|
    ensures (forall i :: 0 <= i < |name| ==> name[i] == ' ') ==> GetInitials(name) == []
  {
    FirstsOfSplit(name);
    if forall i :: 0 <= i < |name| ==> name[i] == ' ' {
      AllBlankHasNoStarts(name);
    }
  }

  lemma {:induction false} AllBlankHasNoStarts(s: string)
    requires forall i :: 0 <= i < |s| ==> s[i] == ' '
    ensures WordStarts(s, true) == []
    decreases |s|
  {
    if |s| > 0 {
      AllBlankHasNoStarts(s[1..]);
    }
  }

  // ---- Viewport classes ----

  const TabletMinWidth := 768
  const DesktopMinWidth := 1024

  predicate IsMobile(width: int) {
    width < TabletMinWidth
  }

  predicate IsTablet(width: int) {
    TabletMinWidth <= width < DesktopMinWidth
  }

  predicate IsDesktop(width: int) {
    width >= DesktopMinWidth
  }

  datatype Device = Mobile | Tablet | Desktop

  /** The class a width falls into, with larger widths never in a smaller class. */
  function DeviceClass(width: int): (d: Device)
    ensures d == Mobile <==> IsMobile(width)
    ensures d == Tablet <==> IsTablet(width)
    ensures d == Desktop <==> IsDesktop(width)
  {
    if width < TabletMinWidth then Mobile
    else if width < DesktopMinWidth then Tablet
    else Desktop
  }

  function Rank(d: Device): nat {
    match d
    case Mobile => 0
    case Tablet => 1
    case Desktop => 2
  }

  /** Every width is in exactly one class. */
  lemma ExactlyOneDevice(width: int)
    ensures (if IsMobile(width) then 1 else 0) + (if IsTablet(width) then 1 else 0) + (if IsDesktop(width) then 1 else 0) == 1
  {
  }

  /** Widening the window never moves it to a smaller class. */
  lemma DeviceMonotone(w1: int, w2: int)
    requires w1 <= w2
    ensures Rank(DeviceClass(w1)) <= Rank(DeviceClass(w2))
  {
  }
}

=== FILE: email_pattern.dfy ===
/**
 * The three email regular expressions of the application, all of the shape `^X+@X+\.X+$`:
 *  - registration (Python):  `^[^@]+@[^@]+\.[^@]+$`
 *  - feedback (Python):      `^[^\s@]+@[^\s@]+\.[^\s@]+$`
 *  - browser form (JS):      `/^[^\s@]+@[^\s@]+\.[^\s@]+$/`
 * They differ only in the character class X.
 */
module EmailPattern {
  import opened Text

  /** The class X: anything but '@', or anything but '@' and whitespace. */
  datatype CharClass = NotAt | NotSpaceOrAt(lang: Lang)

  predicate Allowed(cls: CharClass, c: char) {
    c != '@' && (cls.NotSpaceOrAt? ==> !IsSpace(cls.lang, c))
  }

  predicate AllAllowed(cls: CharClass, s: string) {
    forall i :: 0 <= i < |s| ==> Allowed(cls, s[i])
  }

  /** The regular expression read literally: '@' at `at` and '.' at `dot` cut `s` into three non-empty runs of X. */
  ghost predicate MatchesAt(cls: CharClass, s: string, at: int, dot: int) {
    && 0 < at && at + 1 < dot && dot + 1 < |s|
    && s[at] == '@' && s[dot] == '.'
    && AllAllowed(cls, s[..at]) && AllAllowed(cls, s[at + 1..dot]) && AllAllowed(cls, s[dot + 1..])
  }

  /** `s` matches `^X+@X+\.X+$` as a whole. */
  ghost predicate FullMatch(cls: CharClass, s: string) {
    exists at, dot :: MatchesAt(cls, s, at, dot)
  }

  /** A '.' that is neither the first nor the last character. */
  predicate HasInnerDot(d: string) {
    exists j :: 0 < j < |d| - 1 && d[j] == '.'
  }

  /** A decision procedure for the pattern: split at the first '@', then look at both halves. */
  function Check(cls: CharClass, s: string): bool {
    var at := IndexOf(s, '@');
    && 0 < at < |s|
    && AllAllowed(cls, s[..at])
    && AllAllowed(cls, s[at + 1..])
    && HasInnerDot(s[at + 1..])
  }

  /** Whatever the decision procedure accepts, the regular expression matches. */
  lemma CheckSound(cls: CharClass, s: string)
    requires Check(cls, s)
    ensures FullMatch(cls, s)
  {
    var at := IndexOf(s, '@');
    var d := s[at + 1..];
    var j :| 0 < j < |d| - 1 && d[j] == '.';
    var dot := at + 1 + j;
    assert s[at + 1..dot] == d[..j];
    assert s[dot + 1..] == d[j + 1..];
    assert MatchesAt(cls, s, at, dot);
  }

  /** Whatever the regular expression matches, the decision procedure accepts. */
  lemma CheckComplete(cls: CharClass, s: string, at: int, dot: int)
    requires MatchesAt(cls, s, at, dot)
    ensures Check(cls, s)
  {
    assert forall i :: 0 <= i < at ==> s[..at][i] == s[i];
    assert IndexOf(s, '@') == at;
    var d := s[at + 1..];
    assert d == s[at + 1..dot] + [s[dot]] + s[dot + 1..];
    assert d[dot - at - 1] == '.';
    assert AllAllowed(cls, d);
  }

  /** The decision procedure accepts exactly the strings the regular expression matches. */
  lemma CheckIsFullMatch(cls: CharClass, s: string)
    ensures Check(cls, s) <==> FullMatch(cls, s)
  {
    if Check(cls, s) {
      CheckSound(cls, s);
    }
    if FullMatch(cls, s) {
      var at, dot :| MatchesAt(cls, s, at, dot);
      CheckComplete(cls, s, at, dot);
    }
  }

  /**
   * Python's `re.match` with a pattern ending in `$`: `$` also matches just before a
   * single trailing newline, so one final '\n' outside the match is tolerated.
   */
  function PyMatch(cls: CharClass, s: string): bool {
    Check(cls, s) || (|s| > 0 && s[|s| - 1] == '\n' && Check(cls, s[..|s| - 1]))
  }

  /** The shape of an accepted string: one '@', a non-empty local part, a domain with an inner dot. */
  lemma CheckShape(cls: CharClass, s: string)
    ensures Check(cls, s) <==>
      exists at :: 0 < at < |s| && s[at] == '@' &&
        AllAllowed(cls, s[..at]) && AllAllowed(cls, s[at + 1..]) && HasInnerDot(s[at + 1..])
  {
    if exists at :: 0 < at < |s| && s[at] == '@' &&
        AllAllowed(cls, s[..at]) && AllAllowed(cls, s[at + 1..]) && HasInnerDot(s[at + 1..])
    {
      var at :| 0 < at < |s| && s[at] == '@' &&
        AllAllowed(cls, s[..at]) && AllAllowed(cls, s[at + 1..]) && HasInnerDot(s[at + 1..]);
      assert forall i :: 0 <= i < at ==> s[..at][i] == s[i];
      assert IndexOf(s, '@') == at;
    }
  }

  /** Strings with no '@', with two or more, or (for a class that excludes it) with whitespace are rejected. */
  lemma CheckRejects(cls: CharClass, s: string)
    ensures '@' !in s ==> !Check(cls, s)
    ensures (exists i, j :: 0 <= i < j < |s| && s[i] == '@' && s[j] == '@') ==> !Check(cls, s)
    ensures cls.NotSpaceOrAt? && HasSpace(cls.lang, s) ==> !Check(cls, s)
  {
    var at := IndexOf(s, '@');
    if Check(cls, s) {
      assert s == s[..at] + [s[at]] + s[at + 1..];
      forall i | 0 <= i < |s| && i != at
        ensures Allowed(cls, s[i])
      {
        if i < at {
          assert s[i] == s[..at][i];
        } else {
          assert s[i] == s[at + 1..][i - at - 1];
        }
      }
    }
  }
}

=== FILE: feedback.dfy ===
/**
 * Feedback intake: validate the submission, store it locally with the next id, then
 * optionally forward it to an external form relay and report how that went.
 * The relay itself is outside this model; its observable outcome is an input.
 */
module Feedback {
  import opened Wrappers
  import opened Text
  import opened EmailPattern
  import opened AppStore

  /** The fields that must be present and non-empty, in the order they are checked. */
  const RequiredFields: seq<string> := ["name", "email", "feedback_type", "subject", "message"]

  const MinMessageLength: nat := 10

  /** A submission: its string fields by name, and the optional rating. */
  datatype FeedbackForm = FeedbackForm(fields: map<string, string>, rating: Option<int>)

  /** `data.get(field)`, with a missing field read as the empty string (both are falsy). */
  function Field(form: FeedbackForm, name: string): string {
    if name in form.fields then form.fields[name] else ""
  }

  datatype FeedbackError = FieldRequired(field: string) | InvalidEmail | MessageTooShort

  /** The first of `names` whose field is empty. */
  function FirstMissing(form: FeedbackForm, names: seq<string>): (r: Option<string>)
    ensures r.Some? ==> r.value in names && Field(form, r.value) == []
    ensures r.Some? ==>
      exists k :: 0 <= k < |names| && names[k] == r.value && (forall j :: 0 <= j < k ==> Field(form, names[j]) != [])
    ensures r.None? <==> forall j :: 0 <= j < |names| ==> Field(form, names[j]) != []
  {
    if |names| == 0 then None
    else if Field(form, names[0]) == [] then Some(names[0])
    else
      var rest := FirstMissing(form, names[1..]);
      if rest.Some? then
        var k :| 0 <= k < |names[1..]| && names[1..][k] == rest.value &&
          (forall j :: 0 <= j < k ==> Field(form, names[1..][j]) != []);
        assert names[k + 1] == rest.value;
        rest
      else rest
  }

  /** The validation steps in the handler's order; `None` when the submission is acceptable. */
  function Validate(form: FeedbackForm): Option<FeedbackError> {
    match FirstMissing(form, RequiredFields)
    case Some(f) => Some(FieldRequired(f))
    case None =>
      if !PyMatch(NotSpaceOrAt(Python), Field(form, "email")) then Some(InvalidEmail)
      else if |Field(form, "message")| < MinMessageLength then Some(MessageTooShort)
      else None
  }

  /** How forwarding went, as reported to the client. */
  datatype Web3Status = Skipped | Submitted | Failed

  /** What the relay call produced: an HTTP status, or an exception (timeout, network error). */
  datatype RelayOutcome = Responded(status: int) | Raised

  datatype FeedbackResponse =
    | Rejected(error: FeedbackError)
    | Accepted(feedbackId: nat, web3Status: Web3Status)
    | ServerError

  /** The forwarding decision; `None` when the relay call raised, which the handler turns into a 500. */
  function ForwardStatus(accessKey: Option<string>, relay: RelayOutcome): Option<Web3Status> {
    if accessKey.None? || accessKey.value == [] then Some(Skipped)
    else match relay
      case Raised => None
      case Responded(code) => if code != 200 then Some(Failed) else Some(Submitted)
  }

  /** The entry stored for an accepted submission. */
  function NewEntry(s: Store, form: FeedbackForm): FeedbackEntry {
    FeedbackEntry(|s.feedback| + 1, Field(form, "name"), Field(form, "email"), Field(form, "feedback_type"),
                  Field(form, "subject"), Field(form, "message"), form.rating.GetOr(0))
  }

  /**
   * The handler. A rejected submission changes nothing. An accepted one is stored before
   * forwarding, so it stays stored even when the relay call raises and the reply is a 500.
   */
  function SubmitFeedback(s: Store, form: FeedbackForm, accessKey: Option<string>, relay: RelayOutcome): (r: (Store, FeedbackResponse))
    ensures r.1.Rejected? <==>
      (exists f :: f in RequiredFields && Field(form, f) == [])
      || !PyMatch(NotSpaceOrAt(Python), Field(form, "email"))
      || |Field(form, "message")| < MinMessageLength
    ensures r.1.Rejected? ==> r.0 == s
    ensures !r.1.Rejected? ==>
      && r.0.feedback == s.feedback + [NewEntry(s, form)]
      && r.0.users == s.users && r.0.quizResults == s.quizResults && r.0.progress == s.progress
    ensures r.1.Rejected? ==> Some(r.1.error) == Validate(form)
    ensures r.1.Accepted? ==> r.1.feedbackId == |s.feedback| + 1
    ensures r.1.Accepted? ==> Some(r.1.web3Status) == ForwardStatus(accessKey, relay)
    ensures !r.1.Rejected? ==> (r.1.ServerError? <==> ForwardStatus(accessKey, relay).None?)
  {
    match Validate(form)
    case Some(e) => (s, Rejected(e))
    case None =>
      var entry := NewEntry(s, form);
      var s' := s.(feedback := s.feedback + [entry]);
      match ForwardStatus(accessKey, relay)
      case None => (s', ServerError)
      case Some(status) => (s', Accepted(entry.id, status))
  }

  /** 'skipped' exactly when no access key is configured; otherwise 'submitted' exactly on a 200. */
  lemma ForwardStatusSpec(accessKey: Option<string>, relay: RelayOutcome)
    ensures var key := accessKey.Some? && accessKey.value != [];
      && (ForwardStatus(accessKey, relay) == Some(Skipped) <==> !key)
      && (ForwardStatus(accessKey, relay) == Some(Submitted) <==> key && relay == Responded(200))
      && (ForwardStatus(accessKey, relay) == Some(Failed) <==> key && relay.Responded? && relay.status != 200)
      && (ForwardStatus(accessKey, relay).None? <==> key && relay.Raised?)
  {
  }

  /**
   * For an acceptable submission the reply depends only on the relay: "skipped" without an
   * access key, "submitted" on a 200, "failed" on any other status, and a 500 when the call raised.
   */
  lemma AcceptedReply(s: Store, form: FeedbackForm, accessKey: Option<string>, relay: RelayOutcome)
    requires Validate(form).None?
    ensures var key := accessKey.Some? && accessKey.value != [];
      var r := SubmitFeedback(s, form, accessKey, relay).1;
      && (!key ==> r == Accepted(|s.feedback| + 1, Skipped))
      && (key && relay == Responded(200) ==> r == Accepted(|s.feedback| + 1, Submitted))
      && (key && relay.Responded? && relay.status != 200 ==> r == Accepted(|s.feedback| + 1, Failed))
      && (key && relay.Raised? ==> r == ServerError)
  {
    ForwardStatusSpec(accessKey, relay);
  }

  /** With every field present, a malformed email is reported even when the message is also too short. */
  lemma EmailCheckedBeforeLength(s: Store, form: FeedbackForm, accessKey: Option<string>, relay: RelayOutcome)
    requires forall j :: 0 <= j < |RequiredFields| ==> Field(form, RequiredFields[j]) != []
    requires !PyMatch(NotSpaceOrAt(Python), Field(form, "email"))
    ensures SubmitFeedback(s, form, accessKey, relay) == (s, Rejected(InvalidEmail))
  {
  }

  /** Stored feedback carries ids 1, 2, 3, ... in storage order. */
  predicate SequentialIds(entries: seq<FeedbackEntry>) {
    forall i :: 0 <= i < |entries| ==> entries[i].id == i + 1
  }

  /** Whatever the outcome, the ids stay sequential. */
  lemma SubmitKeepsIdsSequential(s: Store, form: FeedbackForm, accessKey: Option<string>, relay: RelayOutcome)
    requires SequentialIds(s.feedback)
    ensures SequentialIds(SubmitFeedback(s, form, accessKey, relay).0.feedback)
  {
  }

  /** An error names the first empty required field, in the order name, email, type, subject, message. */
  lemma MissingFieldOrder(s: Store, form: FeedbackForm, accessKey: Option<string>, relay: RelayOutcome, k: int)
    requires 0 <= k < |RequiredFields|
    requires Field(form, RequiredFields[k]) == []
    requires forall j :: 0 <= j < k ==> Field(form, RequiredFields[j]) != []
    ensures SubmitFeedback(s, form, accessKey, relay).1 == Rejected(FieldRequired(RequiredFields[k]))
  {
    var r := FirstMissing(form, RequiredFields);
    assert r.Some?;
    var k' :| 0 <= k' < |RequiredFields| && RequiredFields[k'] == r.value &&
      (forall j :: 0 <= j < k' ==> Field(form, RequiredFields[j]) != []);
    assert k' == k;
  }
}

=== FILE: quiz_scoring.dfy ===
/**
 * The quiz rubric: raw points per career from a set of answers.
 * `Rubric` is the rule table as data; `ScoreAnswers` follows the handler's own
 * sequence of `if`/`elif` branches and loops and is proved to agree with it.
 */
module QuizScoring {
  import opened Careers

  /** Question identifier to chosen option; keys need not be exhaustive. */
  type Answers = map<string, string>

  /** `answers.get(q, '')`. */
  function Answer(answers: Answers, q: string): string {
    if q in answers then answers[q] else ""
  }

  /** Question -> answer value -> points per career. Within one question the answer values are distinct. */
  const Rubric: map<string, map<string, map<Career, nat>>> := map[
    "q1" := map[
      "building_tech" := map[SoftwareDeveloper := 20, AiMlEngineer := 15, CloudArchitect := 15],
      "analyzing_data" := map[DataScientist := 20, BusinessAnalyst := 15, ProductManager := 10],
      "creating_visual" := map[UxUiDesigner := 20, DigitalMarketingSpecialist := 10],
      "communicating" := map[DigitalMarketingSpecialist := 20, ContentWriter := 15, ProductManager := 10]
    ],
    "q2" := map[
      "programming" := map[SoftwareDeveloper := 15, AiMlEngineer := 15, CloudArchitect := 15],
      "data_analytics" := map[DataScientist := 15, BusinessAnalyst := 15],
      "creative_design" := map[UxUiDesigner := 15],
      "cybersecurity" := map[CybersecurityExpert := 20]
    ],
    "q3" := map[
      "remote" := map[
        SoftwareDeveloper := 5, DataScientist := 5, AiMlEngineer := 5, UxUiDesigner := 5,
        DigitalMarketingSpecialist := 5, CybersecurityExpert := 5, ProductManager := 5,
        CloudArchitect := 5, BusinessAnalyst := 5, ContentWriter := 5
      ]
    ],
    "q4" := map[
      "mathematics" := map[DataScientist := 10, AiMlEngineer := 10],
      "science_tech" := map[SoftwareDeveloper := 10, CloudArchitect := 10],
      "arts_design" := map[UxUiDesigner := 10],
      "business" := map[BusinessAnalyst := 10, ProductManager := 10]
    ]
  ]

  /** Points the rubric awards career `c` when question `q` was answered `v`; nothing for an unlisted answer. */
  function QuestionPoints(q: string, v: string, c: Career): nat {
    if q in Rubric && v in Rubric[q] && c in Rubric[q][v] then Rubric[q][v][c] else 0
  }

  /** Points from the four rubric questions. */
  function RubricPoints(answers: Answers, c: Career): nat {
    QuestionPoints("q1", Answer(answers, "q1"), c)
    + QuestionPoints("q2", Answer(answers, "q2"), c)
    + QuestionPoints("q3", Answer(answers, "q3"), c)
    + QuestionPoints("q4", Answer(answers, "q4"), c)
  }

  /** A key starting with 'q' that is not one of the four rubric questions. */
  predicate IsExtraQuestion(k: string) {
    |k| > 0 && k[0] == 'q' && k != "q1" && k != "q2" && k != "q3" && k != "q4"
  }

  predicate IsAffirmative(v: string) {
    v == "yes" || v == "very" || v == "high"
  }

  /** The extra questions answered affirmatively; each gives every career 2 points. */
  function BonusKeys(answers: Answers): set<string> {
    set k | k in answers && IsExtraQuestion(k) && IsAffirmative(answers[k])
  }

  const ExtraBonus: nat := 2

  /** The raw score of one career. */
  function RawScore(answers: Answers, c: Career): nat {
    RubricPoints(answers, c) + ExtraBonus * |BonusKeys(answers)|
  }

  /** The score table, indexed by declaration order. */
  function Table(answers: Answers): (t: seq<nat>)
    ensures |t| == CareerCount
  {
    seq(CareerCount, i requires 0 <= i < CareerCount => RawScore(answers, AllCareers[i]))
  }

  /** `career_scores[c] += n`. */
  function Bump(t: seq<nat>, c: Career, n: nat): (r: seq<nat>)
    requires |t| == CareerCount
    ensures |r| == CareerCount
    ensures r[Ordinal(c)] == t[Ordinal(c)] + n
    ensures forall i :: 0 <= i < CareerCount && i != Ordinal(c) ==> r[i] == t[i]
  {
    t[Ordinal(c) := t[Ordinal(c)] + n]
  }

  /** `for career in career_scores: career_scores[career] += n`. */
  method AddToAll(t: seq<nat>, n: nat) returns (r: seq<nat>)
    requires |t| == CareerCount
    ensures |r| == CareerCount
    ensures forall i :: 0 <= i < CareerCount ==> r[i] == t[i] + n
  {
    r := t;
    var j := 0;
    while j < CareerCount
      invariant 0 <= j <= CareerCount && |r| == CareerCount
      invariant forall i :: 0 <= i < j ==> r[i] == t[i] + n
      invariant forall i :: j <= i < CareerCount ==> r[i] == t[i]
    {
      r := r[j := r[j] + n];
      j := j + 1;
    }
  }

  /** The question-1 branches. */
  method ApplyQ1(t: seq<nat>, v: string) returns (r: seq<nat>)
    requires |t| == CareerCount
    ensures |r| == CareerCount
    ensures forall i :: 0 <= i < CareerCount ==> r[i] == t[i] + QuestionPoints("q1", v, AllCareers[i])
  {
    r := t;
    if v == "building_tech" {
      r := Bump(r, SoftwareDeveloper, 20);
      r := Bump(r, AiMlEngineer, 15);
      r := Bump(r, CloudArchitect, 15);
    } else if v == "analyzing_data" {
      r := Bump(r, DataScientist, 20);
      r := Bump(r, BusinessAnalyst, 15);
      r := Bump(r, ProductManager, 10);
    } else if v == "creating_visual" {
      r := Bump(r, UxUiDesigner, 20);
      r := Bump(r, DigitalMarketingSpecialist, 10);
    } else if v == "communicating" {
      r := Bump(r, DigitalMarketingSpecialist, 20);
      r := Bump(r, ContentWriter, 15);
      r := Bump(r, ProductManager, 10);
    }
  }

  /** The question-2 branches. */
  method ApplyQ2(t: seq<nat>, v: string) returns (r: seq<nat>)
    requires |t| == CareerCount
    ensures |r| == CareerCount
    ensures forall i :: 0 <= i < CareerCount ==> r[i] == t[i] + QuestionPoints("q2", v, AllCareers[i])
  {
    r := t;
    if v == "programming" {
      r := Bump(r, SoftwareDeveloper, 15);
      r := Bump(r, AiMlEngineer, 15);
      r := Bump(r, CloudArchitect, 15);
    } else if v == "data_analytics" {
      r := Bump(r, DataScientist, 15);
      r := Bump(r, BusinessAnalyst, 15);
    } else if v == "creative_design" {
      r := Bump(r, UxUiDesigner, 15);
    } else if v == "cybersecurity" {
      r := Bump(r, CybersecurityExpert, 20);
    }
  }

  /** The question-3 branch. */
  method ApplyQ3(t: seq<nat>, v: string) returns (r: seq<nat>)
    requires |t| == CareerCount
    ensures |r| == CareerCount
    ensures forall i :: 0 <= i < CareerCount ==> r[i] == t[i] + QuestionPoints("q3", v, AllCareers[i])
  {
    r := t;
    if v == "remote" {
      r := AddToAll(r, 5);
    }
  }

  /** The question-4 branches. */
  method ApplyQ4(t: seq<nat>, v: string) returns (r: seq<nat>)
    requires |t| == CareerCount
    ensures |r| == CareerCount
    ensures forall i :: 0 <= i < CareerCount ==> r[i] == t[i] + QuestionPoints("q4", v, AllCareers[i])
  {
    r := t;
    if v == "mathematics" {
      r := Bump(r, DataScientist, 10);
      r := Bump(r, AiMlEngineer, 10);
    } else if v == "science_tech" {
      r := Bump(r, SoftwareDeveloper, 10);
      r := Bump(r, CloudArchitect, 10);
    } else if v == "arts_design" {
      r := Bump(r, UxUiDesigner, 10);
    } else if v == "business" {
      r := Bump(r, BusinessAnalyst, 10);
      r := Bump(r, ProductManager, 10);
    }
  }

  /** The four rubric questions, applied to ten zeros in the handler's order. */
  method RubricScores(answers: Answers) returns (scores: seq<nat>)
    ensures |scores| == CareerCount
    ensures forall i :: 0 <= i < CareerCount ==> scores[i] == RubricPoints(answers, AllCareers[i])
  {
    scores := seq(CareerCount, _ => 0);
    scores := ApplyQ1(scores, Answer(answers, "q1"));
    scores := ApplyQ2(scores, Answer(answers, "q2"));
    scores := ApplyQ3(scores, Answer(answers, "q3"));
    scores := ApplyQ4(scores, Answer(answers, "q4"));
  }

  /** The bonus-earning extra questions among the answers no longer pending. */
  ghost function Visited(answers: Answers, pending: set<string>): set<string> {
    set k | k in answers && k !in pending && IsExtraQuestion(k) && IsAffirmative(answers[k])
  }

  lemma VisitStep(answers: Answers, pending: set<string>, key: string)
    requires key in pending && key in answers
    ensures |Visited(answers, pending - {key})| ==
      |Visited(answers, pending)| + (if IsExtraQuestion(key) && IsAffirmative(answers[key]) then 1 else 0)
  {
    var before, after := Visited(answers, pending), Visited(answers, pending - {key});
    if IsExtraQuestion(key) && IsAffirmative(answers[key]) {
      assert after == before + {key};
      assert key !in before;
    } else {
      assert after == before;
    }
  }

  /**
   * The handler's pass over all answers: every affirmative extra question gives every
   * career 2 points. The answers are visited in an arbitrary order, so the result does
   * not depend on it.
   */
  method AddBonuses(answers: Answers, base: seq<nat>) returns (scores: seq<nat>)
    requires |base| == CareerCount
    ensures |scores| == CareerCount
    ensures forall i :: 0 <= i < CareerCount ==> scores[i] == base[i] + ExtraBonus * |BonusKeys(answers)|
  {
    scores := base;
    var pending := answers.Keys;
    assert Visited(answers, pending) == {};
    while pending != {}
      invariant pending <= answers.Keys && |scores| == CareerCount
      invariant forall i :: 0 <= i < CareerCount ==> scores[i] == base[i] + ExtraBonus * |Visited(answers, pending)|
      decreases pending
    {
      var key :| key in pending;
      VisitStep(answers, pending, key);
      if IsExtraQuestion(key) && IsAffirmative(answers[key]) {
        scores := AddToAll(scores, ExtraBonus);
      }
      pending := pending - {key};
    }
    assert Visited(answers, {}) == BonusKeys(answers);
  }

  /** The scoring pass of the quiz handler: the rubric questions, then the extra-question bonus. */
  method ScoreAnswers(answers: Answers) returns (scores: seq<nat>)
    ensures scores == Table(answers)
  {
    var rubric := RubricScores(answers);
    scores := AddBonuses(answers, rubric);
  }
}

module QuizScoringFacts {
  import opened Careers
  import opened QuizScoring

  /** Two answer sets that agree on the rubric questions and on the bonus keys score alike. */
  lemma SameScores(a: Answers, b: Answers)
    requires forall q | q in ["q1", "q2", "q3", "q4"] :: Answer(a, q) == Answer(b, q)
    requires BonusKeys(a) == BonusKeys(b)
    ensures Table(a) == Table(b)
  {
    assert Answer(a, "q1") == Answer(b, "q1") && Answer(a, "q2") == Answer(b, "q2");
    assert Answer(a, "q3") == Answer(b, "q3") && Answer(a, "q4") == Answer(b, "q4");
  }

  /** Outside the rubric and the bonus, an answer adds nothing. */
  lemma {:induction false} NonQuestionKeyAddsNothing(answers: Answers, k: string, v: string)
    requires !IsExtraQuestion(k) && k != "q1" && k != "q2" && k != "q3" && k != "q4"
    ensures Table(answers[k := v]) == Table(answers)
  {
    assert BonusKeys(answers[k := v]) == BonusKeys(answers);
    SameScores(answers[k := v], answers);
  }

  /**
   * Answering q3 with "remote" adds exactly 5 to every career, compared with leaving q3
   * unanswered, and so keeps the raw scores in the same relative order.
   */
  lemma {:induction false} RemoteAddsFive(answers: Answers)
    ensures forall i :: 0 <= i < CareerCount ==>
      Table(answers["q3" := "remote"])[i] == Table(answers - {"q3"})[i] + 5
    ensures forall i, j :: 0 <= i < CareerCount && 0 <= j < CareerCount ==>
      (Table(answers["q3" := "remote"])[i] <= Table(answers["q3" := "remote"])[j]
       <==> Table(answers - {"q3"})[i] <= Table(answers - {"q3"})[j])
  {
    var a := answers["q3" := "remote"];
    var b := answers - {"q3"};
    assert BonusKeys(a) == BonusKeys(b);
    forall i | 0 <= i < CareerCount
      ensures Table(a)[i] == Table(b)[i] + 5
    {
      var c := AllCareers[i];
      assert QuestionPoints("q3", Answer(a, "q3"), c) == 5;
      assert QuestionPoints("q3", Answer(b, "q3"), c) == 0;
      assert Answer(a, "q1") == Answer(b, "q1") && Answer(a, "q2") == Answer(b, "q2");
      assert Answer(a, "q4") == Answer(b, "q4");
    }
  }

  /**
   * One more extra question answered "yes", "very" or "high" adds exactly 2 to every
   * career and keeps the raw scores in the same relative order.
   */
  lemma {:induction false} ExtraAffirmativeAddsTwo(answers: Answers, k: string, v: string)
    requires IsExtraQuestion(k) && k !in answers && IsAffirmative(v)
    ensures forall i :: 0 <= i < CareerCount ==>
      Table(answers[k := v])[i] == Table(answers)[i] + ExtraBonus
    ensures forall i, j :: 0 <= i < CareerCount && 0 <= j < CareerCount ==>
      (Table(answers[k := v])[i] <= Table(answers[k := v])[j] <==> Table(answers)[i] <= Table(answers)[j])
  {
    var a := answers[k := v];
    assert BonusKeys(a) == BonusKeys(answers) + {k};
    assert k !in BonusKeys(answers);
  }

  /** An extra question answered with anything else adds nothing. */
  lemma {:induction false} ExtraOtherAddsNothing(answers: Answers, k: string, v: string)
    requires IsExtraQuestion(k) && k !in answers && !IsAffirmative(v)
    ensures Table(answers[k := v]) == Table(answers)
  {
    assert BonusKeys(answers[k := v]) == BonusKeys(answers);
    SameScores(answers[k := v], answers);
  }

  /** Each rubric question contributes one listed branch at most: an unlisted value contributes nothing. */
  lemma UnlistedAnswerAddsNothing(q: string, v: string, c: Career)
    requires q in Rubric && v !in Rubric[q]
    ensures QuestionPoints(q, v, c) == 0
  {
  }

  /** With no answers at all, every raw score is 0. */
  lemma EmptyAnswersScoreZero()
    ensures forall i :: 0 <= i < CareerCount ==> Table(map[])[i] == 0
  {
    assert BonusKeys(map[]) == {};
  }

  /** Only "remote" answered: every raw score is 5. */
  lemma RemoteOnlyScores()
    ensures forall i :: 0 <= i < CareerCount ==> Table(map["q3" := "remote"])[i] == 5
  {
    var a: Answers := map["q3" := "remote"];
    assert BonusKeys(a) == {};
    assert Answer(a, "q3") == "remote";
    assert Answer(a, "q1") == "" && Answer(a, "q2") == "" && Answer(a, "q4") == "";
  }

  /** Only "building_tech" for q1: 20 for Software Developer, 15 for AI/ML Engineer and Cloud Architect, 0 elsewhere. */
  lemma BuildingTechScores()
    ensures var t := Table(map["q1" := "building_tech"]);
      && t[Ordinal(SoftwareDeveloper)] == 20
      && t[Ordinal(AiMlEngineer)] == 15 && t[Ordinal(CloudArchitect)] == 15
      && forall i :: 0 <= i < CareerCount && i != 0 && i != 2 && i != 7 ==> t[i] == 0
  {
    var a: Answers := map["q1" := "building_tech"];
    assert BonusKeys(a) == {};
    assert Answer(a, "q1") == "building_tech";
    assert Answer(a, "q2") == "" && Answer(a, "q3") == "" && Answer(a, "q4") == "";
  }
}

=== FILE: quiz_submission.dfy ===
/**
 * The quiz submission endpoint: score the answers, rank the careers, enrich the top three
 * from the catalog, log the result and update the user's progress counters.
 */
module QuizSubmission {
  import opened Wrappers
  import opened Careers
  import opened QuizScoring
  import opened QuizScoringFacts
  import opened Ranking
  import opened AppStore

  /** The pure part of the handler: scores, percentages, then the first three of the ranking. */
  function Recommend(answers: Answers): seq<Entry> {
    TopThree(Percentages(Table(answers)))
  }

  datatype QuizResponse = NotAuthenticated | Recommended(topCareers: seq<TopCareer>)

  function Names(top: seq<Entry>): seq<string> {
    seq(|top|, i requires 0 <= i < |top| => Name(top[i].0))
  }

  /** `{name: score for name, score in top}`: a later entry overwrites an earlier one with the same name. */
  function ScoreMap(top: seq<Entry>): map<string, nat> {
    if |top| == 0 then map[]
    else ScoreMap(top[..|top| - 1])[Name(top[|top| - 1].0) := top[|top| - 1].1]
  }

  /** The progress entry after one more quiz: created at zero if absent, then counted. */
  function CountQuiz(progress: map<string, Progress>, user: string, matches: nat): map<string, Progress> {
    var before := if user in progress then progress[user] else Progress(0, 0);
    progress[user := before.(quizzesTaken := before.quizzesTaken + 1, matchesFound := matches)]
  }

  function QuizzesTaken(progress: map<string, Progress>, user: string): nat {
    if user in progress then progress[user].quizzesTaken else 0
  }

  /** Joins each ranked entry with its catalog entry. */
  function EnrichAll(catalog: Catalog, top: seq<Entry>): (r: seq<TopCareer>)
    ensures |r| == |top|
    ensures forall i :: 0 <= i < |top| ==> r[i] == Enrich(catalog, top[i].0, top[i].1)
  {
    if |top| == 0 then [] else [Enrich(catalog, top[0].0, top[0].1)] + EnrichAll(catalog, top[1..])
  }

  /**
   * Everything after the ranking: enrich the entries, append the result record, create the
   * user's progress entry at zero if absent, count the quiz and record the number of matches.
   */
  function Commit(s: Store, u: string, top: seq<Entry>, catalog: Catalog): (Store, QuizResponse) {
    var logged := s.quizResults + [QuizResult(u, Names(top), ScoreMap(top))];
    (s.(quizResults := logged, progress := CountQuiz(s.progress, u, |top|)), Recommended(EnrichAll(catalog, top)))
  }

  /** The handler. Without a session user it answers 401 and touches nothing. */
  function SubmitQuiz(s: Store, user: Option<string>, answers: Answers, catalog: Catalog): (r: (Store, QuizResponse))
    ensures user.None? ==> r == (s, NotAuthenticated)
  {
    match user
    case None => (s, NotAuthenticated)
    case Some(u) => Commit(s, u, Recommend(answers), catalog)
  }

  /** Names are keys of a score map built from entries with distinct careers, each with its own score. */
  lemma {:induction false} ScoreMapLookup(top: seq<Entry>)
    requires forall i, j :: 0 <= i < j < |top| ==> top[i].0 != top[j].0
    ensures forall i :: 0 <= i < |top| ==> Name(top[i].0) in ScoreMap(top) && ScoreMap(top)[Name(top[i].0)] == top[i].1
  {
    if |top| > 0 {
      var init := top[..|top| - 1];
      ScoreMapLookup(init);
      forall i | 0 <= i < |init|
        ensures Name(init[i].0) != Name(top[|top| - 1].0)
      {
        NamesDistinct(init[i].0, top[|top| - 1].0);
      }
    }
  }

  /** The score map has exactly the entries' names as keys. */
  lemma {:induction false} ScoreMapKeys(top: seq<Entry>)
    ensures ScoreMap(top).Keys == set i | 0 <= i < |top| :: Name(top[i].0)
  {
    if |top| > 0 {
      var init := top[..|top| - 1];
      ScoreMapKeys(init);
      var last := Name(top[|top| - 1].0);
      assert forall i :: 0 <= i < |init| ==> init[i] == top[i];
      forall k | k in ScoreMap(top).Keys
        ensures exists i :: 0 <= i < |top| && Name(top[i].0) == k
      {
        if k != last {
          var i :| 0 <= i < |init| && Name(init[i].0) == k;
          assert Name(top[i].0) == k;
        }
      }
    }
  }

  lemma NamesDistinct(c: Career, d: Career)
    requires c != d
    ensures Name(c) != Name(d)
  {
  }

  /**
   * The response for the percentages `p`: the first three careers of their ranking, in rank
   * order, each with its own percentage and its catalog description, salary range and skills;
   * no omitted career has a higher percentage.
   */
  ghost predicate RespondsWithTopThree(p: seq<nat>, catalog: Catalog, resp: QuizResponse)
    requires |p| == CareerCount
  {
    var top := TopThree(p);
    && resp.Recommended? && |resp.topCareers| == TopCount && |top| == TopCount
    && (forall i :: 0 <= i < TopCount ==>
          && resp.topCareers[i].name == Name(top[i].0)
          && resp.topCareers[i].score == p[Ordinal(top[i].0)]
          && resp.topCareers[i].name in catalog
          && resp.topCareers[i].description == catalog[resp.topCareers[i].name].description
          && resp.topCareers[i].salary == catalog[resp.topCareers[i].name].salaryRange
          && resp.topCareers[i].skills == catalog[resp.topCareers[i].name].skillsRequired)
    && (forall i, j :: 0 <= i < j < TopCount ==> resp.topCareers[i].score >= resp.topCareers[j].score)
    && (forall c: Career :: (forall i :: 0 <= i < TopCount ==> top[i].0 != c) ==>
          p[Ordinal(c)] <= resp.topCareers[TopCount - 1].score)
  }

  /** The record logged for the response `top`: its user, its names in rank order, and a score map over exactly those names. */
  ghost predicate RecordsResponse(rec: QuizResult, u: string, top: seq<TopCareer>) {
    && rec.user == u
    && rec.careers == seq(|top|, i requires 0 <= i < |top| => top[i].name)
    && rec.scores.Keys == (set i | 0 <= i < |top| :: top[i].name)
    && (forall i :: 0 <= i < |top| ==> top[i].name in rec.scores && rec.scores[top[i].name] == top[i].score)
  }

  /** The progress table after a quiz by `u`: an entry for `u`, counted once, 3 matches, others untouched. */
  ghost predicate CountsQuiz(progress: map<string, Progress>, u: string, progress': map<string, Progress>) {
    && progress'.Keys == progress.Keys + {u}
    && progress'[u].quizzesTaken == QuizzesTaken(progress, u) + 1
    && progress'[u].matchesFound == TopCount
    && (forall v :: v in progress && v != u ==> progress'[v] == progress[v])
  }

  /**
   * The store changes a submission by `u` must make: log exactly one result whose names and
   * scores are those of the response, create the user's progress entry if needed, count the
   * quiz, record 3 matches, and change nothing else.
   */
  ghost predicate RecordsSubmission(s: Store, u: string, s': Store, resp: QuizResponse)
    requires resp.Recommended?
  {
    && |s'.quizResults| == |s.quizResults| + 1
    && s'.quizResults[..|s.quizResults|] == s.quizResults
    && RecordsResponse(s'.quizResults[|s.quizResults|], u, resp.topCareers)
    && CountsQuiz(s.progress, u, s'.progress)
    && s'.users == s.users && s'.feedback == s.feedback
  }

  /** What a signed-in submission with `answers` must do. */
  ghost predicate ProperSubmission(s: Store, u: string, answers: Answers, catalog: Catalog, s': Store, resp: QuizResponse) {
    && RespondsWithTopThree(Percentages(Table(answers)), catalog, resp)
    && RecordsSubmission(s, u, s', resp)
  }

  /** The enriched top three of the ranking is the response the percentages call for. */
  lemma ResponseIsTopThree(p: seq<nat>, catalog: Catalog)
    requires |p| == CareerCount && KeyedByCareer(catalog)
    ensures RespondsWithTopThree(p, catalog, Recommended(EnrichAll(catalog, TopThree(p))))
  {
    TopThreeSpec(p);
    var top := TopThree(p);
    NameInCatalog(catalog);
    var r := EnrichAll(catalog, top);
    forall i | 0 <= i < TopCount
      ensures r[i] == Enrich(catalog, top[i].0, top[i].1)
    {
      EnrichUsesCatalog(catalog, top[i].0, top[i].1);
    }
    assert forall i, j :: 0 <= i < j < TopCount ==> Precedes(top[i], top[j]);
  }

  /** The store changes of `Commit`: one record logged, the user's counters updated, nothing else touched. */
  lemma CommitEffects(s: Store, u: string, top: seq<Entry>, catalog: Catalog)
    requires |top| == TopCount
    requires forall i, j :: 0 <= i < j < TopCount ==> top[i].0 != top[j].0
    ensures Commit(s, u, top, catalog).1.Recommended?
    ensures |Commit(s, u, top, catalog).1.topCareers| == TopCount
    ensures RecordsSubmission(s, u, Commit(s, u, top, catalog).0, Commit(s, u, top, catalog).1)
  {
    LoggedRecord(u, top, catalog);
  }

  /** The record `Commit` logs matches the enriched response. */
  lemma LoggedRecord(u: string, top: seq<Entry>, catalog: Catalog)
    requires forall i, j :: 0 <= i < j < |top| ==> top[i].0 != top[j].0
    ensures RecordsResponse(QuizResult(u, Names(top), ScoreMap(top)), u, EnrichAll(catalog, top))
  {
    var r := EnrichAll(catalog, top);
    EnrichedFields(catalog, top);
    assert Names(top) == seq(|r|, i requires 0 <= i < |r| => r[i].name);
    ScoreMapKeys(top);
    EnrichedNames(catalog, top);
    ScoreMapLookup(top);
  }

  /** Enrichment keeps each entry's name and score. */
  lemma EnrichedFields(catalog: Catalog, top: seq<Entry>)
    ensures forall i :: 0 <= i < |top| ==>
      EnrichAll(catalog, top)[i].name == Name(top[i].0) && EnrichAll(catalog, top)[i].score == top[i].1
  {
  }

  /** Enrichment keeps the names: the response names are the entries' career names. */
  lemma EnrichedNames(catalog: Catalog, top: seq<Entry>)
    ensures (set i | 0 <= i < |top| :: EnrichAll(catalog, top)[i].name) == (set i | 0 <= i < |top| :: Name(top[i].0))
  {
    EnrichedFields(catalog, top);
  }

  /** A signed-in submission behaves as `ProperSubmission` describes, for any answers. */
  lemma SubmitQuizEffects(s: Store, u: string, answers: Answers, catalog: Catalog)
    requires KeyedByCareer(catalog)
    ensures var (s', resp) := SubmitQuiz(s, Some(u), answers, catalog);
      ProperSubmission(s, u, answers, catalog, s', resp)
  {
    var p := Percentages(Table(answers));
    var top := Recommend(answers);
    TopThreeSpec(p);
    assert forall i, j :: 0 <= i < j < TopCount ==> Precedes(top[i], top[j]);
    ResponseIsTopThree(p, catalog);
    CommitEffects(s, u, top, catalog);
  }

  /** Submits every answer set in turn for the same user. */
  function SubmitAll(s: Store, u: string, rounds: seq<Answers>, catalog: Catalog): Store
    decreases |rounds|
  {
    if |rounds| == 0 then s
    else SubmitAll(SubmitQuiz(s, Some(u), rounds[0], catalog).0, u, rounds[1..], catalog)
  }

  /**
   * After N submissions by one user their counter has grown by N, the log keeps its earlier
   * records and has grown by N entries, and the accounts are untouched.
   */
  lemma {:induction false} QuizzesTakenCounts(s: Store, u: string, rounds: seq<Answers>, catalog: Catalog)
    ensures QuizzesTaken(SubmitAll(s, u, rounds, catalog).progress, u) == QuizzesTaken(s.progress, u) + |rounds|
    ensures s.quizResults <= SubmitAll(s, u, rounds, catalog).quizResults
    ensures |SubmitAll(s, u, rounds, catalog).quizResults| == |s.quizResults| + |rounds|
    ensures SubmitAll(s, u, rounds, catalog).users == s.users
    decreases |rounds|
  {
    if |rounds| > 0 {
      var next := SubmitQuiz(s, Some(u), rounds[0], catalog).0;
      QuizzesTakenCounts(next, u, rounds[1..], catalog);
      assert s.quizResults <= next.quizResults;
    }
  }

  /** A user without a progress entry, as every newly registered user is, counts exactly the quizzes submitted. */
  lemma FreshUserCount(s: Store, u: string, rounds: seq<Answers>, catalog: Catalog)
    requires u !in s.progress
    ensures QuizzesTaken(SubmitAll(s, u, rounds, catalog).progress, u) == |rounds|
  {
    QuizzesTakenCounts(s, u, rounds, catalog);
  }

  /** No answers: every career gets 50 and the declaration order decides, Software Developer first. */
  lemma EmptyAnswersExample()
    ensures Recommend(map[]) == [(SoftwareDeveloper, 50), (DataScientist, 50), (AiMlEngineer, 50)]
  {
    EmptyAnswersScoreZero();
    var t := Table(map[]);
    AllZeroPercentages(t);
    TieKeepsDeclarationOrder(Percentages(t), NeutralPercent);
  }

  /** Only "remote": every raw score is 5, every percentage floor(500 / 25) = 20, a ten-way tie. */
  lemma RemoteOnlyExample()
    ensures Recommend(map["q3" := "remote"]) == [(SoftwareDeveloper, 20), (DataScientist, 20), (AiMlEngineer, 20)]
  {
    RemoteOnlyScores();
    var t := Table(map["q3" := "remote"]);
    UniformPercentages(t, 5);
    TieKeepsDeclarationOrder(Percentages(t), 20);
  }

  /** "building_tech" for q1: Software Developer ranks first with 50 and beats Content Writer. */
  lemma BuildingTechExample()
    ensures var p := Percentages(Table(map["q1" := "building_tech"]));
      p[Ordinal(SoftwareDeveloper)] == 50 && p[Ordinal(ContentWriter)] == 0
    ensures Recommend(map["q1" := "building_tech"])[0] == (SoftwareDeveloper, 50)
  {
    BuildingTechScores();
    var t := Table(map["q1" := "building_tech"]);
    BuildingTechPercentages(t);
    StrictLeaderFirst(Percentages(t), SoftwareDeveloper);
  }

  lemma BuildingTechPercentages(t: seq<nat>)
    requires |t| == CareerCount && t[0] == 20 && t[2] == 15 && t[7] == 15
    requires forall i :: 0 <= i < CareerCount && i != 0 && i != 2 && i != 7 ==> t[i] == 0
    ensures Percentages(t)[0] == 50 && Percentages(t)[9] == 0
    ensures forall i :: 0 <= i < CareerCount && i != 0 ==> Percentages(t)[i] < 50
  {
    assert Max(t) == 20 by {
      var k :| 0 <= k < CareerCount && t[k] == Max(t);
    }
  }
}

=== FILE: ranking.dfy ===
/**
 * From raw scores to the three recommended careers: percentages with the "+20"
 * softening divisor, then a stable descending sort and the first three entries.
 */
module Ranking {
  import opened Careers

  /** `max(career_scores.values())`. */
  function Max(t: seq<nat>): (m: nat)
    requires |t| > 0
    ensures forall i :: 0 <= i < |t| ==> t[i] <= m
    ensures exists i :: 0 <= i < |t| && t[i] == m
  {
    if |t| == 1 then t[0]
    else
      var rest := Max(t[1..]);
      assert forall i :: 1 <= i < |t| ==> t[i] == t[1..][i - 1];
      if t[0] >= rest then t[0] else rest
  }

  /** Added to the maximum before dividing, so that even the top scorer stays below 100%. */
  const Softening: nat := 20

  /** Percentage given to every career when no rule awarded any points. */
  const NeutralPercent: nat := 50

  /**
   * `min(int((score / (max_score + 20)) * 100), 100)` when the maximum is positive, else 50.
   * The quotient is taken exactly (the handler computes it in floating point).
   */
  function Percent(score: nat, maxScore: nat): nat {
    if maxScore > 0 then
      var q := (score * 100) / (maxScore + Softening);
      if q < 100 then q else 100
    else NeutralPercent
  }

  /** The match-percentage table, indexed like the score table. */
  function Percentages(t: seq<nat>): (p: seq<nat>)
    requires |t| == CareerCount
    ensures |p| == CareerCount
  {
    var m := Max(t);
    seq(CareerCount, i requires 0 <= i < CareerCount => Percent(t[i], m))
  }

  lemma DivMonotone(x: nat, y: nat, d: nat)
    requires x <= y && d > 0
    ensures x / d <= y / d
  {
    var qx, qy := x / d, y / d;
    assert d * qx <= x <= y < d * (qy + 1);
    MulCancel(d, qx, qy + 1);
  }

  lemma MulCancel(d: nat, a: int, b: int)
    requires d > 0 && d * a < d * b
    ensures a < b
  {
  }

  /** Below the softened maximum the floor stays under 100, so the clamp never applies. */
  lemma PercentBelowHundred(score: nat, maxScore: nat)
    requires 0 < maxScore && score <= maxScore
    ensures (score * 100) / (maxScore + Softening) < 100
  {
  }

  /**
   * The percentage rule: with a positive maximum each percentage is the exact floor of
   * score * 100 / (max + 20), in 0..99; with every score at 0 each percentage is 50.
   */
  lemma {:induction false} PercentRule(t: seq<nat>, i: int)
    requires |t| == CareerCount && 0 <= i < CareerCount
    ensures Max(t) > 0 ==>
      Percentages(t)[i] == (t[i] * 100) / (Max(t) + Softening) && Percentages(t)[i] < 100
    ensures Max(t) == 0 ==> Percentages(t)[i] == NeutralPercent
  {
    if Max(t) > 0 {
      PercentBelowHundred(t[i], Max(t));
    }
  }

  /** A higher raw score never gets a lower percentage. */
  lemma {:induction false} PercentMonotone(t: seq<nat>, i: int, j: int)
    requires |t| == CareerCount && 0 <= i < CareerCount && 0 <= j < CareerCount
    requires t[i] <= t[j]
    ensures Percentages(t)[i] <= Percentages(t)[j]
  {
    var m := Max(t);
    if m > 0 {
      DivMonotone(t[i] * 100, t[j] * 100, m + Softening);
      PercentBelowHundred(t[j], m);
    }
  }

  /** A career with its percentage. */
  type Entry = (Career, nat)

  /** The percentage table as (career, percentage) pairs in declaration order. */
  function Paired(p: seq<nat>): (s: seq<Entry>)
    requires |p| == CareerCount
    ensures |s| == CareerCount
  {
    seq(CareerCount, i requires 0 <= i < CareerCount => (AllCareers[i], p[i]))
  }

  /** Entries listed in strictly increasing declaration order. */
  predicate InDeclarationOrder(s: seq<Entry>) {
    forall i, j :: 0 <= i < j < |s| ==> Ordinal(s[i].0) < Ordinal(s[j].0)
  }

  /** `a` comes before `b`: a higher percentage, or an equal one and an earlier declaration. */
  predicate Precedes(a: Entry, b: Entry) {
    a.1 > b.1 || (a.1 == b.1 && Ordinal(a.0) < Ordinal(b.0))
  }

  /** Descending by percentage with ties in declaration order. */
  predicate Ranked(s: seq<Entry>) {
    forall i, j :: 0 <= i < j < |s| ==> Precedes(s[i], s[j])
  }

  /**
   * Inserts `x` in front of the first entry whose percentage does not exceed its own,
   * so `x` stays ahead of the equal entries that followed it in the input.
   */
  function Insert(x: Entry, ys: seq<Entry>): (r: seq<Entry>)
    ensures multiset(r) == multiset(ys) + multiset{x}
  {
    if |ys| == 0 || ys[0].1 <= x.1 then [x] + ys
    else
      assert ys == [ys[0]] + ys[1..];
      [ys[0]] + Insert(x, ys[1..])
  }

  /** `sorted(items, key=percentage, reverse=True)`: a stable sort, descending. */
  function SortDescending(xs: seq<Entry>): (r: seq<Entry>)
    ensures multiset(r) == multiset(xs)
  {
    if |xs| == 0 then []
    else
      assert xs == [xs[0]] + xs[1..];
      Insert(xs[0], SortDescending(xs[1..]))
  }

  lemma {:induction false} InsertRanked(x: Entry, ys: seq<Entry>)
    requires Ranked(ys)
    requires forall e :: e in ys ==> Ordinal(x.0) < Ordinal(e.0)
    ensures Ranked(Insert(x, ys))
  {
    if |ys| == 0 || ys[0].1 <= x.1 {
      var r := [x] + ys;
      forall i, j | 0 <= i < j < |r|
        ensures Precedes(r[i], r[j])
      {
        if i == 0 {
          assert r[j] == ys[j - 1] && r[j] in ys;
          if j > 1 {
            assert Precedes(ys[0], ys[j - 1]);
          }
        } else {
          assert r[i] == ys[i - 1] && r[j] == ys[j - 1];
        }
      }
    } else {
      var tail := ys[1..];
      assert forall i, j :: 0 <= i < j < |tail| ==> tail[i] == ys[i + 1] && tail[j] == ys[j + 1];
      assert forall e :: e in tail ==> e in ys;
      InsertRanked(x, tail);
      var ins := Insert(x, tail);
      var r := [ys[0]] + ins;
      forall i, j | 0 <= i < j < |r|
        ensures Precedes(r[i], r[j])
      {
        if i == 0 {
          var e := r[j];
          assert e == ins[j - 1] && e in multiset(ins);
          assert e == x || e in multiset(tail);
          if e != x {
            var k :| 0 <= k < |tail| && tail[k] == e;
            assert Precedes(ys[0], ys[k + 1]);
          }
        } else {
          assert r[i] == ins[i - 1] && r[j] == ins[j - 1];
        }
      }
    }
  }

  /** Sorting entries given in declaration order yields the ranking order: stability breaks ties. */
  lemma {:induction false} SortRanked(xs: seq<Entry>)
    requires InDeclarationOrder(xs)
    ensures Ranked(SortDescending(xs))
  {
    if |xs| > 0 {
      var tail := xs[1..];
      assert InDeclarationOrder(tail) by {
        assert forall i :: 0 <= i < |tail| ==> tail[i] == xs[i + 1];
      }
      SortRanked(tail);
      var sorted := SortDescending(tail);
      forall e | e in sorted
        ensures Ordinal(xs[0].0) < Ordinal(e.0)
      {
        assert e in multiset(tail);
        var k :| 0 <= k < |tail| && tail[k] == e;
        assert tail[k] == xs[k + 1];
      }
      InsertRanked(xs[0], sorted);
    }
  }

  /** Sorting a list whose percentages are all equal leaves it as it is. */
  lemma {:induction false} SortAllEqual(xs: seq<Entry>, v: nat)
    requires forall i :: 0 <= i < |xs| ==> xs[i].1 == v
    ensures SortDescending(xs) == xs
  {
    if |xs| > 0 {
      var tail := xs[1..];
      assert forall i :: 0 <= i < |tail| ==> tail[i] == xs[i + 1];
      SortAllEqual(tail, v);
      assert xs == [xs[0]] + tail;
    }
  }

  /** The full ranking of the ten careers. */
  function FullRanking(p: seq<nat>): seq<Entry>
    requires |p| == CareerCount
  {
    SortDescending(Paired(p))
  }

  const TopCount: nat := 3

  /** The first three entries of the ranking. */
  function TopThree(p: seq<nat>): (top: seq<Entry>)
    requires |p| == CareerCount
    ensures |top| == TopCount
  {
    var r := FullRanking(p);
    assert |r| == |multiset(r)| == |multiset(Paired(p))| == CareerCount;
    r[..TopCount]
  }

  lemma PairedInDeclarationOrder(p: seq<nat>)
    requires |p| == CareerCount
    ensures InDeclarationOrder(Paired(p))
  {
    forall i, j | 0 <= i < j < CareerCount
      ensures Ordinal(Paired(p)[i].0) < Ordinal(Paired(p)[j].0)
    {
      OrdinalOfIndex(i);
      OrdinalOfIndex(j);
    }
  }

  /** Every career appears in the ranking exactly once, carrying its own percentage. */
  lemma RankingIsPermutation(p: seq<nat>)
    requires |p| == CareerCount
    ensures |FullRanking(p)| == CareerCount
    ensures forall c: Career :: (c, p[Ordinal(c)]) in FullRanking(p)
    ensures forall e :: e in FullRanking(p) ==> e.1 == p[Ordinal(e.0)]
  {
    var r := FullRanking(p);
    assert |r| == |multiset(r)| == |multiset(Paired(p))| == CareerCount;
    forall c: Career
      ensures (c, p[Ordinal(c)]) in r
    {
      assert Paired(p)[Ordinal(c)] == (c, p[Ordinal(c)]);
      assert (c, p[Ordinal(c)]) in multiset(Paired(p));
    }
    forall e | e in r
      ensures e.1 == p[Ordinal(e.0)]
    {
      assert e in multiset(Paired(p));
      var k :| 0 <= k < CareerCount && Paired(p)[k] == e;
      OrdinalOfIndex(k);
    }
  }

  /**
   * The top list: exactly three entries, each a career with its own percentage, in ranking
   * order (percentages non-increasing, ties in declaration order), and every career left out
   * ranks after the third entry.
   */
  lemma {:induction false} TopThreeSpec(p: seq<nat>)
    requires |p| == CareerCount
    ensures |TopThree(p)| == TopCount
    ensures Ranked(TopThree(p))
    ensures forall i :: 0 <= i < TopCount ==> TopThree(p)[i].1 == p[Ordinal(TopThree(p)[i].0)]
    ensures forall c: Career :: (forall i :: 0 <= i < TopCount ==> TopThree(p)[i].0 != c) ==>
      Precedes(TopThree(p)[TopCount - 1], (c, p[Ordinal(c)]))
  {
    var r := FullRanking(p);
    PairedInDeclarationOrder(p);
    SortRanked(Paired(p));
    RankingIsPermutation(p);
    var top := TopThree(p);
    assert forall i :: 0 <= i < TopCount ==> top[i] == r[i] && r[i] in r;
    forall c: Career | forall i :: 0 <= i < TopCount ==> top[i].0 != c
      ensures Precedes(top[TopCount - 1], (c, p[Ordinal(c)]))
    {
      var e := (c, p[Ordinal(c)]);
      var k :| 0 <= k < |r| && r[k] == e;
      assert Precedes(r[TopCount - 1], r[k]);
    }
  }

  /** When every raw score is 0 no rule fired, and every career gets the neutral 50. */
  lemma AllZeroPercentages(t: seq<nat>)
    requires |t| == CareerCount && forall i :: 0 <= i < CareerCount ==> t[i] == 0
    ensures forall i :: 0 <= i < CareerCount ==> Percentages(t)[i] == NeutralPercent
  {
    assert Max(t) == 0;
  }

  /** When every raw score is the same positive n, every percentage is floor(100n / (n + 20)). */
  lemma UniformPercentages(t: seq<nat>, n: nat)
    requires |t| == CareerCount && n > 0 && forall i :: 0 <= i < CareerCount ==> t[i] == n
    ensures forall i :: 0 <= i < CareerCount ==> Percentages(t)[i] == (n * 100) / (n + Softening)
  {
    assert Max(t) == n by {
      var k :| 0 <= k < CareerCount && t[k] == Max(t);
    }
    forall i | 0 <= i < CareerCount
      ensures Percentages(t)[i] == (n * 100) / (n + Softening)
    {
      PercentRule(t, i);
    }
  }

  /** A ten-way tie: the top three are the first three careers in declaration order. */
  lemma {:induction false} TieKeepsDeclarationOrder(p: seq<nat>, v: nat)
    requires |p| == CareerCount && forall i :: 0 <= i < CareerCount ==> p[i] == v
    ensures TopThree(p) == [(SoftwareDeveloper, v), (DataScientist, v), (AiMlEngineer, v)]
  {
    var xs := Paired(p);
    SortAllEqual(xs, v);
    assert FullRanking(p) == xs;
  }

  /** A career whose percentage is strictly the highest heads the top list. */
  lemma {:induction false} StrictLeaderFirst(p: seq<nat>, c: Career)
    requires |p| == CareerCount
    requires forall i :: 0 <= i < CareerCount && i != Ordinal(c) ==> p[i] < p[Ordinal(c)]
    ensures TopThree(p)[0] == (c, p[Ordinal(c)])
  {
    TopThreeSpec(p);
    var top := TopThree(p);
    var e := (c, p[Ordinal(c)]);
    forall i | 0 <= i < TopCount && top[i].1 >= e.1
      ensures top[i] == e
    {
      OrdinalOfIndex(Ordinal(top[i].0));
    }
    // Left out, c would rank after the third entry, which would then be c itself.
    assert exists k :: 0 <= k < TopCount && top[k].0 == c;
    var k :| 0 <= k < TopCount && top[k].0 == c;
    if k > 0 {
      assert Precedes(top[0], top[k]);
    }
  }
}

=== FILE: routes.dfy ===
/**
 * Two request dispatchers: the college list selected by the `type` query parameter, and
 * the career named by a roadmap URL.
 */
module Routes {
  import opened Wrappers
  import opened Text
  import opened Careers

  /** The six college lists, in table order; the college records themselves are static data. */
  datatype CollegeTable<T> = CollegeTable(
    iits: seq<T>, nits: seq<T>, iIits: seq<T>, aiims: seq<T>, privateUniversities: seq<T>, iims: seq<T>)

  /** The fallback: every list concatenated in table order. */
  function AllColleges<T>(db: CollegeTable<T>): seq<T> {
    db.iits + db.nits + db.iIits + db.aiims + db.privateUniversities + db.iims
  }

  /**
   * The handler as written: the third branch tests "iits" again and is unreachable, so
   * the IIIT list is only ever returned inside the fallback.
   */
  function CollegesAsWritten<T>(db: CollegeTable<T>, kind: Option<string>): seq<T> {
    var k := Lower(kind.GetOr("all"));
    if k == "iits" then db.iits
    else if k == "nits" then db.nits
    else if k == "iits" then db.iIits
    else if k == "aiims" then db.aiims
    else if k == "private" then db.privateUniversities
    else if k == "iims" then db.iims
    else AllColleges(db)
  }

  /** The dispatch with the third branch testing "iiits", the lower-cased name of the IIIT list. */
  function Colleges<T>(db: CollegeTable<T>, kind: Option<string>): seq<T> {
    var k := Lower(kind.GetOr("all"));
    if k == "iits" then db.iits
    else if k == "nits" then db.nits
    else if k == "iiits" then db.iIits
    else if k == "aiims" then db.aiims
    else if k == "private" then db.privateUniversities
    else if k == "iims" then db.iims
    else AllColleges(db)
  }

  /** The type names each list answers to; any other type, or none, selects the fallback. */
  predicate IsListType(k: string) {
    k == "iits" || k == "nits" || k == "iiits" || k == "aiims" || k == "private" || k == "iims"
  }

  lemma CollegesAsWrittenSpec<T>(db: CollegeTable<T>, kind: Option<string>)
    ensures var k := Lower(kind.GetOr("all"));
      && (k == "iits" ==> CollegesAsWritten(db, kind) == db.iits)
      && (k == "nits" ==> CollegesAsWritten(db, kind) == db.nits)
      && (k == "aiims" ==> CollegesAsWritten(db, kind) == db.aiims)
      && (k == "private" ==> CollegesAsWritten(db, kind) == db.privateUniversities)
      && (k == "iims" ==> CollegesAsWritten(db, kind) == db.iims)
      && (!(k in ["iits", "nits", "aiims", "private", "iims"]) ==> CollegesAsWritten(db, kind) == AllColleges(db))
  {
  }

  /**
   * As written, no type name selects the IIIT list on its own: every spelling of "iiits",
   * the table's own key "iIits" included, falls through to the full list.
   */
  lemma IiitListOnlyInFallback<T>(db: CollegeTable<T>, kind: string)
    requires Lower(kind) == "iiits"
    ensures CollegesAsWritten(db, Some(kind)) == AllColleges(db)
    ensures |db.iits + db.nits + db.aiims + db.privateUniversities + db.iims| > 0 ==>
      CollegesAsWritten(db, Some(kind)) != db.iIits
  {
  }

  /** Even the IIIT list's own key, "iIits", lower-cases to "iiits" and gets the full list. */
  lemma IiitKeyFallsBack<T>(db: CollegeTable<T>)
    ensures CollegesAsWritten(db, Some("iIits")) == AllColleges(db)
  {
    assert LowerChar('I') == 'i';
    assert Lower("iIits") == "iiits";
    IiitListOnlyInFallback(db, "iIits");
  }

  /** With the branch corrected, each list has its own type name, and an unknown type still yields all. */
  lemma CollegesSpec<T>(db: CollegeTable<T>, kind: Option<string>)
    ensures var k := Lower(kind.GetOr("all"));
      && (k == "iits" ==> Colleges(db, kind) == db.iits)
      && (k == "nits" ==> Colleges(db, kind) == db.nits)
      && (k == "iiits" ==> Colleges(db, kind) == db.iIits)
      && (k == "aiims" ==> Colleges(db, kind) == db.aiims)
      && (k == "private" ==> Colleges(db, kind) == db.privateUniversities)
      && (k == "iims" ==> Colleges(db, kind) == db.iims)
      && (!IsListType(k) ==> Colleges(db, kind) == AllColleges(db))
  {
  }

  /** The two dispatchers differ only on "iiits". */
  lemma CollegesAgreeElsewhere<T>(db: CollegeTable<T>, kind: Option<string>)
    requires Lower(kind.GetOr("all")) != "iiits"
    ensures Colleges(db, kind) == CollegesAsWritten(db, kind)
  {
  }

  // ---- Roadmap URLs ----

  datatype RoadmapPage = CareerRoadmap(career: string) | GeneralRoadmap

  /** The URL segment for a career name: spaces and slashes become underscores. */
  function UrlSlug(name: string): string {
    seq(|name|, i requires 0 <= i < |name| => if name[i] == ' ' || name[i] == '/' then '_' else name[i])
  }

  /** The handler as written: underscores back to spaces, then the AI/ML special case. */
  function RoadmapNameAsWritten(slug: string): string {
    ReplaceAll(ReplaceChar(slug, '_', ' '), "AI ML Engineer", "AI/ML Engineer")
  }

  /** The handler as written: the normalised name's roadmap when it is a catalog key, the general roadmap otherwise. */
  function RoadmapAsWritten(catalog: Catalog, slug: string): (page: RoadmapPage)
    ensures page.CareerRoadmap? ==> page.career in catalog && page.career == RoadmapNameAsWritten(slug)
    ensures page.GeneralRoadmap? <==> RoadmapNameAsWritten(slug) !in catalog
  {
    var name := RoadmapNameAsWritten(slug);
    if name in catalog then CareerRoadmap(name) else GeneralRoadmap
  }

  /** The normalisation with the UX/UI special case added beside the AI/ML one. */
  function RoadmapName(slug: string): string {
    ReplaceAll(RoadmapNameAsWritten(slug), "UX UI Designer", "UX/UI Designer")
  }

  function Roadmap(catalog: Catalog, slug: string): (page: RoadmapPage)
    ensures page.CareerRoadmap? ==> page.career in catalog && page.career == RoadmapName(slug)
    ensures page.GeneralRoadmap? <==> RoadmapName(slug) !in catalog
  {
    var name := RoadmapName(slug);
    if name in catalog then CareerRoadmap(name) else GeneralRoadmap
  }

  /** Turning spaces and slashes into underscores and underscores back into spaces only loses the slashes. */
  lemma SlugBack(name: string)
    requires '_' !in name
    ensures ReplaceChar(UrlSlug(name), '_', ' ') == seq(|name|, i requires 0 <= i < |name| => if name[i] == '/' then ' ' else name[i])
  {
  }

  /**
   * A name with no underscore, no slash and neither "AI" nor "UX" inside (guaranteed by
   * having no capital I or X) survives the slug round trip.
   */
  lemma PlainNameRoundTrip(n: string)
    requires '_' !in n && '/' !in n && 'I' !in n && 'X' !in n
    ensures RoadmapName(UrlSlug(n)) == n
  {
    SlugBack(n);
    assert ReplaceChar(UrlSlug(n), '_', ' ') == n;
    assert NoStartOf(n, "AI ML Engineer") && NoStartOf(n, "UX UI Designer") by {
      assert forall i :: 0 <= i < |n| ==> n[i] != 'I' && n[i] != 'X';
    }
    ReplaceAllAbsent(n, "AI ML Engineer", "AI/ML Engineer");
    ReplaceAllAbsent(n, "UX UI Designer", "UX/UI Designer");
  }

  lemma AiMlRoundTrip()
    ensures RoadmapName(UrlSlug("AI/ML Engineer")) == "AI/ML Engineer"
  {
    SlugBack("AI/ML Engineer");
    assert ReplaceChar(UrlSlug("AI/ML Engineer"), '_', ' ') == "AI ML Engineer";
    ReplaceAllWhole("AI ML Engineer", "AI/ML Engineer");
    ReplaceAllAbsent("AI/ML Engineer", "UX UI Designer", "UX/UI Designer");
  }

  lemma UxUiRoundTrip()
    ensures RoadmapName(UrlSlug("UX/UI Designer")) == "UX/UI Designer"
  {
    SlugBack("UX/UI Designer");
    assert ReplaceChar(UrlSlug("UX/UI Designer"), '_', ' ') == "UX UI Designer";
    ReplaceAllAbsent("UX UI Designer", "AI ML Engineer", "AI/ML Engineer");
    ReplaceAllWhole("UX UI Designer", "UX/UI Designer");
  }

  lemma NoUnderscoreInName(c: Career)
    ensures '_' !in Name(c)
  {
  }

  lemma NoSlashInPlainName(c: Career)
    requires c != AiMlEngineer && c != UxUiDesigner
    ensures '/' !in Name(c)
  {
  }

  lemma NoCapitalIInPlainName(c: Career)
    requires c != AiMlEngineer && c != UxUiDesigner
    ensures 'I' !in Name(c)
  {
  }

  lemma NoCapitalXInPlainName(c: Career)
    requires c != AiMlEngineer && c != UxUiDesigner
    ensures 'X' !in Name(c)
  {
  }

  /** Apart from the two special cases, no career name holds an underscore, a slash, a capital I or a capital X. */
  lemma NameShape(c: Career)
    requires c != AiMlEngineer && c != UxUiDesigner
    ensures '_' !in Name(c) && '/' !in Name(c) && 'I' !in Name(c) && 'X' !in Name(c)
  {
    NoUnderscoreInName(c);
    NoSlashInPlainName(c);
    NoCapitalIInPlainName(c);
    NoCapitalXInPlainName(c);
  }

  /** With a catalog that covers the careers, every career's URL slug leads back to that career's roadmap. */
  lemma RoadmapRoundTrip(catalog: Catalog, c: Career)
    requires CoversCareers(catalog)
    ensures Roadmap(catalog, UrlSlug(Name(c))) == CareerRoadmap(Name(c))
  {
    if c == AiMlEngineer {
      AiMlRoundTrip();
    } else if c == UxUiDesigner {
      UxUiRoundTrip();
    } else {
      NameShape(c);
      PlainNameRoundTrip(Name(c));
    }
    assert Name(c) in catalog;
  }

  /** As written, the UX/UI Designer slug falls back to the general roadmap of the shipped catalog. */
  lemma UxUiSlugFallsBack(catalog: Catalog)
    requires KeyedByCareer(catalog)
    ensures UrlSlug("UX/UI Designer") == "UX_UI_Designer"
    ensures RoadmapAsWritten(catalog, "UX_UI_Designer") == GeneralRoadmap
  {
    var ux := "UX UI Designer";
    SlugBack("UX/UI Designer");
    assert ReplaceChar("UX_UI_Designer", '_', ' ') == ux;
    ReplaceAllAbsent(ux, "AI ML Engineer", "AI/ML Engineer");
    assert ux !in CatalogNames();
  }

  /** In the as-written normalisation every '/' comes from the AI/ML replacement and follows an 'I'. */
  lemma {:induction false} SlashFollowsI(t: string, i: int)
    requires '/' !in t && 0 <= i < |ReplaceAll(t, "AI ML Engineer", "AI/ML Engineer")|
    requires ReplaceAll(t, "AI ML Engineer", "AI/ML Engineer")[i] == '/'
    ensures i > 0 && ReplaceAll(t, "AI ML Engineer", "AI/ML Engineer")[i - 1] == 'I'
    decreases |t|
  {
    var pat, rep := "AI ML Engineer", "AI/ML Engineer";
    var o := ReplaceAll(t, pat, rep);
    if |t| < |pat| {
    } else if t[..|pat|] == pat {
      var rest := ReplaceAll(t[|pat|..], pat, rep);
      assert o == rep + rest;
      assert '/' !in t[|pat|..] by {
        assert forall x :: x in t[|pat|..] ==> x in t;
      }
      if i >= |rep| {
        assert rest[i - |rep|] == '/';
        SlashFollowsI(t[|pat|..], i - |rep|);
        if i - |rep| > 0 {
          assert o[i - 1] == rest[i - 1 - |rep|];
        }
      } else {
        assert rep[i] == '/';
      }
    } else {
      var rest := ReplaceAll(t[1..], pat, rep);
      assert o == [t[0]] + rest;
      assert '/' !in t[1..] by {
        assert forall x :: x in t[1..] ==> x in t;
      }
      if i > 0 {
        assert rest[i - 1] == '/';
        SlashFollowsI(t[1..], i - 1);
      }
    }
  }

  /** As written, no URL segment (which cannot contain '/') ever reaches the UX/UI Designer roadmap. */
  lemma UxUiRoadmapUnreachable(catalog: Catalog, slug: string)
    requires '/' !in slug
    ensures RoadmapAsWritten(catalog, slug) != CareerRoadmap("UX/UI Designer")
  {
    var t := ReplaceChar(slug, '_', ' ');
    var o := RoadmapNameAsWritten(slug);
    if o == "UX/UI Designer" {
      SlashFollowsI(t, 2);
    }
  }
}

=== FILE: text.dfy ===
/**
 * String primitives shared by the server (Python) and the browser helpers (JavaScript):
 * whitespace stripping, ASCII case mapping, searching, splitting and replacing.
 * Only ASCII characters are given a case or a whitespace meaning.
 */
module Text {

  /** Whose notion of whitespace applies: Python's `str.strip`/`\s`, or JavaScript's `trim`/`\s`. */
  datatype Lang = Python | JavaScript

  /** ASCII whitespace; Python also counts the separators U+001C..U+001F as space. */
  predicate IsSpace(lang: Lang, c: char) {
    c == ' ' || ('\t' <= c <= '\r') || (lang == Python && '\U{1C}' <= c <= '\U{1F}')
  }

  predicate AllSpace(lang: Lang, s: string) {
    forall i :: 0 <= i < |s| ==> IsSpace(lang, s[i])
  }

  predicate HasSpace(lang: Lang, s: string) {
    exists i :: 0 <= i < |s| && IsSpace(lang, s[i])
  }

  /** Drops leading whitespace: the result is the longest suffix not starting with a space. */
  function StripStart(lang: Lang, s: string): (r: string)
    ensures |r| <= |s| && r == s[|s| - |r|..]
    ensures AllSpace(lang, s[..|s| - |r|])
    ensures r == [] || !IsSpace(lang, r[0])
  {
    if |s| > 0 && IsSpace(lang, s[0]) then
      var tail := s[1..];
      var r := StripStart(lang, tail);
      assert tail[|tail| - |r|..] == s[|s| - |r|..];
      assert s[..|s| - |r|] == [s[0]] + tail[..|tail| - |r|];
      r
    else s
  }

  /** Drops trailing whitespace: the result is the longest prefix not ending with a space. */
  function StripEnd(lang: Lang, s: string): (r: string)
    ensures |r| <= |s| && r == s[..|r|]
    ensures AllSpace(lang, s[|r|..])
    ensures r == [] || !IsSpace(lang, r[|r| - 1])
  {
    if |s| > 0 && IsSpace(lang, s[|s| - 1]) then
      var init := s[..|s| - 1];
      var r := StripEnd(lang, init);
      assert init[..|r|] == s[..|r|];
      assert s[|r|..] == init[|r|..] + [s[|s| - 1]];
      r
    else s
  }

  /** Python's `str.strip()` and JavaScript's `String.prototype.trim()`. */
  function Strip(lang: Lang, s: string): string {
    StripEnd(lang, StripStart(lang, s))
  }

  /** A string that stripping leaves alone. */
  predicate IsStripped(lang: Lang, s: string) {
    s == [] || (!IsSpace(lang, s[0]) && !IsSpace(lang, s[|s| - 1]))
  }

  lemma StripIsStripped(lang: Lang, s: string)
    ensures IsStripped(lang, Strip(lang, s))
    ensures Strip(lang, s) == [] <==> AllSpace(lang, s)
  {
    var a := StripStart(lang, s);
    var b := StripEnd(lang, a);
    if b != [] {
      assert b[0] == a[0];
    }
    if a == [] {
      assert s[..|s|] == s;
    } else {
      assert s[|s| - |a|] == a[0];
    }
  }

  lemma StripOfStripped(lang: Lang, s: string)
    requires IsStripped(lang, s)
    ensures Strip(lang, s) == s
  {
  }

  function LowerChar(c: char): char {
    if 'A' <= c <= 'Z' then (c as int - 'A' as int + 'a' as int) as char else c
  }

  function UpperChar(c: char): char {
    if 'a' <= c <= 'z' then (c as int - 'a' as int + 'A' as int) as char else c
  }

  /** Python's `str.lower()` on ASCII text. */
  function Lower(s: string): string {
    seq(|s|, i requires 0 <= i < |s| => LowerChar(s[i]))
  }

  /** JavaScript's `String.prototype.toUpperCase()` on ASCII text. */
  function Upper(s: string): string {
    seq(|s|, i requires 0 <= i < |s| => UpperChar(s[i]))
  }

  /** Lower-casing neither creates nor removes whitespace, so it keeps a stripped string stripped. */
  lemma LowerKeepsStripped(lang: Lang, s: string)
    requires IsStripped(lang, s)
    ensures IsStripped(lang, Lower(s))
  {
  }

  lemma LowerIdempotent(s: string)
    ensures Lower(Lower(s)) == Lower(s)
  {
  }

  /** Index of the first occurrence of `c` in `s`, or `|s|` when there is none. */
  function IndexOf(s: string, c: char): (k: nat)
    ensures k <= |s|
    ensures k < |s| ==> s[k] == c
    ensures forall j :: 0 <= j < k ==> s[j] != c
  {
    if |s| == 0 then 0
    else if s[0] == c then 0
    else 1 + IndexOf(s[1..], c)
  }

  /** `s.split(sep)` for a one-character separator: the pieces between separators, empty ones included. */
  function Split(s: string, sep: char): (parts: seq<string>)
    ensures |parts| > 0
    ensures forall i :: 0 <= i < |parts| ==> sep !in parts[i]
    decreases |s|
  {
    var k := IndexOf(s, sep);
    if k == |s| then [s] else [s[..k]] + Split(s[k + 1..], sep)
  }

  /** One step of splitting: the piece before the first separator, then the split of the rest. */
  lemma SplitStep(s: string, sep: char)
    ensures IndexOf(s, sep) == |s| ==> Split(s, sep) == [s]
    ensures IndexOf(s, sep) < |s| ==>
      Split(s, sep) == [s[..IndexOf(s, sep)]] + Split(s[IndexOf(s, sep) + 1..], sep)
  {
    var k := IndexOf(s, sep);
    var parts := Split(s, sep);
    if k < |s| {
      assert parts == [s[..k]] + Split(s[k + 1..], sep);
    } else {
      assert parts == [s];
    }
  }

  /** `sep.join(parts)`. */
  function Join(parts: seq<string>, sep: char): string
  {
    if |parts| == 0 then []
    else if |parts| == 1 then parts[0]
    else parts[0] + [sep] + Join(parts[1..], sep)
  }

  /** Splitting and re-joining on the same separator gives back the original string. */
  lemma {:induction false} JoinSplit(s: string, sep: char)
    ensures Join(Split(s, sep), sep) == s
    decreases |s|
  {
    var k := IndexOf(s, sep);
    SplitStep(s, sep);
    if k < |s| {
      var rest := Split(s[k + 1..], sep);
      JoinSplit(s[k + 1..], sep);
      JoinCons(s[..k], rest, sep);
      assert s == s[..k] + [sep] + s[k + 1..];
    }
  }

  /** Joining a first piece onto a non-empty list puts one separator between them. */
  lemma JoinCons(first: string, rest: seq<string>, sep: char)
    requires |rest| > 0
    ensures Join([first] + rest, sep) == first + [sep] + Join(rest, sep)
  {
    assert ([first] + rest)[1..] == rest;
  }

  /** `s.replace(from, to)` for single characters. */
  function ReplaceChar(s: string, from: char, to: char): string {
    seq(|s|, i requires 0 <= i < |s| => if s[i] == from then to else s[i])
  }

  /** `s.replace(pat, rep)`: every non-overlapping occurrence of `pat`, scanning left to right. */
  function ReplaceAll(s: string, pat: string, rep: string): string
    requires |pat| > 0
    decreases |s|
  {
    if |s| < |pat| then s
    else if s[..|pat|] == pat then rep + ReplaceAll(s[|pat|..], pat, rep)
    else [s[0]] + ReplaceAll(s[1..], pat, rep)
  }

  /** A string in which `pat` cannot start anywhere: its first two characters never appear in a row. */
  predicate NoStartOf(s: string, pat: string)
    requires |pat| >= 2
  {
    forall i :: 1 <= i < |s| && s[i - 1] == pat[0] ==> s[i] != pat[1]
  }

  /** Where the pattern cannot start, replacing it changes nothing. */
  lemma {:induction false} ReplaceAllAbsent(s: string, pat: string, rep: string)
    requires |pat| >= 2 && NoStartOf(s, pat)
    ensures ReplaceAll(s, pat, rep) == s
    decreases |s|
  {
    if |s| >= |pat| {
      assert s[..|pat|][0] == s[0] && s[..|pat|][1] == s[1];
      assert NoStartOf(s[1..], pat) by {
        assert forall i :: 1 <= i < |s[1..]| ==> s[1..][i - 1] == s[i] && s[1..][i] == s[i + 1];
      }
      ReplaceAllAbsent(s[1..], pat, rep);
      assert s == [s[0]] + s[1..];
    }
  }

  /** The pattern itself is replaced whole. */
  lemma ReplaceAllWhole(pat: string, rep: string)
    requires |pat| > 0
    ensures ReplaceAll(pat, pat, rep) == rep
  {
    assert pat[|pat|..] == [];
    assert rep + [] == rep;
  }
}

=== FILE: wrappers.dfy ===
/** Optional values, used for absent request fields, keys and session users. */
module Wrappers {

  datatype Option<+T> = None | Some(value: T) {

    /** Python's `dict.get(k, default)`: the value when present, `default` otherwise. */
    function GetOr(default: T): T {
      match this
      case Some(v) => v
      case None => default
    }
  }
}
